=== FILE: README.md ===
# Skewboid frontier filter — a Dafny model

Skewboid reduces a list of candidate designs, each scored on several objectives
(each minimised or maximised), to a frontier of non-dominated candidates. The
"skewboid" parameter alpha weighs, in each comparison, the other objectives
against the one in focus. For the newer ratio comparison, `DominatesDiversity`,
alpha 0 is classic Pareto dominance (`SkewboidDominance.DiversityAtZeroIsPareto`).
The other comparisons are not, even at alpha 0. The newer weighted one skips
tolerance-equal objectives and gives ties to the second candidate. The older
weighted and ratio ones are non-strict, so every candidate dominates itself. The
older ratio one also divides by the second candidate's signed objective, so a
negative objective turns the comparison round (`AdjustableFrontier.RatioAtZero`). By design,
positive alpha filters more candidates out and negative alpha lets more in; the
code does not guarantee this for every input (see "Left out"). A root finder
adjusts alpha until the frontier has a requested number of members.

The repository holds two generations of this code, and both are modelled here.

- **ParetoFunctions.cs (newer).** It has three comparators:
  - `Dominates`: plain, tolerance-aware;
  - `DominatesWithWeights`: weighted lenses;
  - `DominatesDiversity`: ratio lenses.

  There are three incremental updates (`UpdatePareto`, `UpdateParetoWithWeights`,
  `UpdateParetoDiversity`) and two `FindParetoCandidates` folds. On top of them,
  `FindGivenNumCandidates` runs a secant search on alpha.
- **AdjustablePareto/ParetoFunctions.cs (older).** It has two non-strict
  comparators: a weighted one and a ratio one. Its updates remove every member
  c dominates, stop at the first member that dominates c, and otherwise append
  c. It also has its own `FindParetoCandidates` and `FindGivenNumCandidates`.
  Its configuration lives in static fields. Here those fields are explicit
  parameters (`AdjustableFrontier.Settings`).

How the model is built:

- Objectives are `seq<real>`.
- A candidate has an identity and its objectives. The identity stands for the
  object reference the source compares with `List.Remove`.
- An update walks the list from the back. It is modelled as a scan over
  `prefix + suffix`. `prefix` is the part not yet looked at; `suffix` is the
  members kept so far.
- The scans take their comparison as a function value. Their effect on the list
  (removal and rejection, order, counting, incomparability) is therefore proved once for every
  comparator.
- An empty candidate list makes the source throw (`First()` or `[0]`). Here it
  is a `Failure(EmptyInput)`.

Modules:

| file | module | models |
|---|---|---|
| objectives.dfy | `Objectives` | candidates, directions (-1 Minimize, +1 Maximize), the tolerance tests, `CheckIfEqual` |
| lanes.dfy | `Lanes` | the `c1Dominates`/`c2Dominates` flag fold shared by the newer comparators |
| skewboid_dominance.dfy | `SkewboidDominance` | the three newer comparators |
| skewboid_frontier.dfy | `SkewboidFrontier` | the newer updates and builders |
| skewboid_frontier_facts.dfy | `SkewboidFrontierFacts` | what the newer builders guarantee; the tolerance-equal cases |
| bracket.dfy | `Bracket` | the secant step and the loop's termination measure |
| skewboid_search.dfy | `SkewboidSearch` | the newer `FindGivenNumCandidates` |
| adjustable_frontier.dfy | `AdjustableFrontier` | the older comparators, updates and builder |
| adjustable_search.dfy | `AdjustableSearch` | the older `FindGivenNumCandidates` |
| sequences.dfy | `Sequences` | subsequence and pairwise relations (helpers) |

## Model

| member | source | states |
|---|---|---|
| Objectives.CheckIfEqual | ParetoFunctions.cs:265-276 | true exactly when every objective pair is within the relative tolerance; false at the first pair outside it |
| Objectives.ToleranceTests | ParetoFunctions.cs:272 | the non-strict test of `CheckIfEqual` against the strict test with which the comparators skip a pair (lines 340 and 427): both are symmetric; a strictly close pair is also within tolerance; two zeros are equal for `CheckIfEqual` but never skipped; with tolerance 0 nothing is skipped and only identical values are equal |
| Objectives.CheckIfEqualSymmetric | ParetoFunctions.cs:265-276 | the equality test gives the same answer with its two candidates swapped |
| Lanes.Verdict | ParetoFunctions.cs:433-445 | 1 exactly when c1 loses no lane (so also when every lane is skipped); -1 exactly when c1 loses some lane and wins none; 0 otherwise |
| SkewboidDominance.PlainLanes | ParetoFunctions.cs:419-442 | one lane per objective; a lane is skipped exactly when the pair is indistinct within the tolerance |
| SkewboidDominance.Dominates | ParetoFunctions.cs:413-446 | `equal` holds exactly when every pair is indistinct; `equal` implies decision 1; the decision is -1, 0 or 1 |
| SkewboidDominance.DominatesMeaning | ParetoFunctions.cs:413-446 | decision 1 iff c1 is strictly better on every objective that is not skipped; decision -1 iff some objective is not skipped and c1 is better on none. The direction index advances only on objectives that are not skipped |
| SkewboidDominance.DominatesSelf | ParetoFunctions.cs:413-446 | with a positive tolerance and nonzero objectives, a candidate compared with itself gives decision 1 and `equal` |
| SkewboidDominance.LensEqual | ParetoFunctions.cs:335-345 | one lens's objective loop leaves the `equal` flag true iff it came in true and every pair it visits is skipped |
| SkewboidDominance.WeightedEqual | ParetoFunctions.cs:327-345 | the flag, started true and passed from lens to lens, is true after at least one lens iff every objective pair is indistinct |
| SkewboidDominance.DominatesWithWeights | ParetoFunctions.cs:322-370 | decision 1 iff c1's lens sum is strictly larger in every lens; -1 iff there is a lens and c1's sum is larger in none (ties go to c2); 0 otherwise. `equal`, carried through the lens loop, holds exactly when every objective pair is indistinct |
| SkewboidDominance.WeightedEqualIsDead | ParetoFunctions.cs:340-368 | with at least one objective, `equal` comes only with decision -1, since every lens then scores 0 against 0 |
| SkewboidDominance.DiversityFrom | ParetoFunctions.cs:384-404 | the lens loop returns true iff c1 loses no remaining lens and wins at least one (counting earlier wins) |
| SkewboidDominance.DominatesDiversity | ParetoFunctions.cs:380-405 | no candidate diversity-dominates itself, whatever alpha. What it means lens by lens (loses no lens, wins one) is the contract of `DiversityFrom` at lens 0 |
| SkewboidDominance.DiversityAtZeroIsPareto | ParetoFunctions.cs:380-405 | at alpha 0 diversity dominance is classic Pareto dominance: at least as good everywhere and strictly better somewhere |
| SkewboidFrontier.ScanCompare | ParetoFunctions.cs:207-227 | the backwards loop of `UpdatePareto`/`UpdateParetoWithWeights`: the list grows by at most one; members come from the list or are c; it returns true iff c ends up in the list; after an `equal` stop it returns `keepEquals`. What it removes and when it rejects is `ScanCompareRule` |
| SkewboidFrontier.ScanDiversity | ParetoFunctions.cs:244-262 | the same guarantees for the `UpdateParetoDiversity` loop, which tests equality first; its removal and rejection rule is `ScanDiversityRule` |
| SkewboidFrontier.ScanCompareRule | ParetoFunctions.cs:207-227 | members already looked at stay; a member is removed only if c's decision against it is 1; c is rejected only at a member whose decision is -1, or at an `equal` member; a scan that appends c met neither, and removed exactly the members with decision 1. Exactly what is left in each case is `ScanCompareAppends` and `ScanCompareStop` |
| SkewboidFrontier.ScanCompareAppends | ParetoFunctions.cs:207-227 | if no member gives -1 or `equal`, the scan returns true without `equalsExisting` and leaves the members with decision other than 1, in order, then c |
| SkewboidFrontier.ScanCompareStop | ParetoFunctions.cs:207-224 | if the scan stops, the last member giving -1 or `equal` decides: with -1, c is rejected; otherwise `equalsExisting` is set and the result is `keepEquals`, with c at that index when kept. Everything in front of that member is untouched. From it on, exactly the members with decision 1 are gone, including that member when its decision is 1 |
| SkewboidFrontier.ScanDiversityRule | ParetoFunctions.cs:244-262 | members already looked at stay; a member is removed only if c dominates it; c is rejected only by a member it is not equal to, does not dominate, and is dominated by, or at an equal member, which stays; a scan that appends c met no equal or dominating member, and removed exactly the members c dominates. Exactly what is left is `ScanDiversityAppends` and `ScanDiversityStop` |
| SkewboidFrontier.ScanDiversityAppends | ParetoFunctions.cs:244-262 | if no member is equal to c or dominates it undominated, the scan returns true without `equalsExisting` and leaves the members c does not dominate, in order, then c |
| SkewboidFrontier.ScanDiversityStop | ParetoFunctions.cs:244-259 | if the scan stops, the last equal or dominating member decides: that member stays; at an equal member `equalsExisting` is set and the result is `keepEquals`, with c just before it when kept; otherwise c is rejected. Everything in front of that member is untouched, and behind it exactly the members c dominates are gone |
| SkewboidFrontier.ScanCompareOrder | ParetoFunctions.cs:207-227 | the surviving members keep their order; without `keepEquals`, c can only be appended at the end |
| SkewboidFrontier.ScanDiversityOrder | ParetoFunctions.cs:244-262 | the same order guarantee for the diversity loop |
| SkewboidFrontier.ScanCompareCount | ParetoFunctions.cs:207-227 | no member is duplicated: as a multiset the result is within the old list plus c |
| SkewboidFrontier.ScanDiversityCount | ParetoFunctions.cs:244-262 | the diversity loop never duplicates a member either |
| SkewboidFrontier.NoEqualStop | ParetoFunctions.cs:304-311 | when `equal` always comes with rejection, the scan never reports `equalsExisting` |
| SkewboidFrontier.WeightedEqualRejects | ParetoFunctions.cs:296-311 | for a candidate with at least one objective, the weighted comparison rejects whenever it reports `equal` |
| SkewboidFrontier.UpdatePareto | ParetoFunctions.cs:202-228 | returns true iff c is in the new list; the list only loses members and gains c at most once, survivors in order; without `keepEquals` it is a subsequence of the old list plus c; after an `equal` stop the result is `keepEquals`. What it removes and when it rejects is `UpdateParetoRule` |
| SkewboidFrontier.UpdateParetoWithWeights | ParetoFunctions.cs:287-314 | the same list guarantees; with at least one objective `equalsExisting` is always false; the rule is `UpdateParetoWithWeightsRule` |
| SkewboidFrontier.UpdateParetoDiversity | ParetoFunctions.cs:239-263 | the same guarantees as `UpdatePareto`; the rule is `UpdateParetoDiversityRule` |
| SkewboidFrontier.UpdateParetoRule | ParetoFunctions.cs:207-227 | a member is removed only if `Dominates(c, member)` is 1; c is rejected only at a member for which it is -1, or at an `equal` member; when c is appended no member gave -1 or `equal`, and the members removed are exactly those that gave 1. Exactly: with no member giving -1 or `equal`, the list is the members not giving 1 followed by c; otherwise the last such member decides as in `ScanCompareStop` (rejection, or the `equal` stop with c inserted only with `keepEquals`), with the members before it untouched and exactly those after it giving 1 removed |
| SkewboidFrontier.UpdateParetoWithWeightsRule | ParetoFunctions.cs:293-313 | the same rule with `DominatesWithWeights`, including the exact list left on a rejection: members before the last member giving -1 untouched, exactly those after it giving 1 removed |
| SkewboidFrontier.UpdateParetoDiversityRule | ParetoFunctions.cs:245-262 | a member is removed only if c diversity-dominates it; c is rejected only by a member it is not `CheckIfEqual` to, does not dominate, and is dominated by, or at an equal member, which stays; when c is appended no member was equal to c or dominated it, and the members removed are exactly those c dominates. Exactly: with no such member, the list is the members c does not dominate followed by c; otherwise the last such member stays and decides as in `ScanDiversityStop`, with the members before it untouched and exactly those after it that c dominates removed |
| SkewboidFrontier.FindParetoCandidates | ParetoFunctions.cs:165-178 | the frontier is no longer than the input and drawn from it without duplication |
| SkewboidFrontier.FindParetoCandidatesPlain | ParetoFunctions.cs:186-194 | the same for the plain builder |
| SkewboidFrontier.FrontierInOrder | ParetoFunctions.cs:165-178 | without `keepEquals`, the frontier of distinct candidates is a subsequence of the input: members appear in input order |
| SkewboidFrontier.PlainFrontierInOrder | ParetoFunctions.cs:186-194 | the same for the plain builder |
| SkewboidFrontierFacts.ScanCompareApart | ParetoFunctions.cs:207-227 | a compare-scan keeps the list pairwise incomparable (neither member dominates the other) |
| SkewboidFrontierFacts.ScanDiversitySeparate | ParetoFunctions.cs:244-262 | the diversity scan without `keepEquals` keeps the list pairwise non-dominating and not tolerance-equal |
| SkewboidFrontierFacts.PlainFrontierApart | ParetoFunctions.cs:186-194 | the plain frontier without `keepEquals`: no member dominates, or is dominated by, a later member |
| SkewboidFrontierFacts.WeightedFrontierApart | ParetoFunctions.cs:165-178 | the weighted frontier, with or without `keepEquals` and at any width: the same incomparability |
| SkewboidFrontierFacts.WeightedFrontierEmpty | ParetoFunctions.cs:293-313 | for candidates without objectives every weighted comparison is decision 1 with `equal`, so each newcomer removes the one member and replaces it only with `keepEquals`: the weighted frontier never has more than one member |
| SkewboidFrontierFacts.DiversityFrontierSeparate | ParetoFunctions.cs:165-178 | the diversity frontier without `keepEquals`: no two members dominate one another and no two are tolerance-equal |
| SkewboidFrontierFacts.EqualMemberReplaced | ParetoFunctions.cs:209-224 | `UpdatePareto` meeting an indistinct member removes it; it puts c in its place only with `keepEquals`, and stops |
| SkewboidFrontierFacts.EqualMemberKept | ParetoFunctions.cs:248-255 | `UpdateParetoDiversity` meeting a tolerance-equal member keeps it; it inserts c just before it only with `keepEquals`, and stops |
| SkewboidFrontierFacts.DuplicatesVanish | ParetoFunctions.cs:209-226 | as written, two tolerance-equal candidates both disappear from the plain frontier without `keepEquals` |
| SkewboidFrontier.ScanEqualFirst | ParetoFunctions.cs:207-227 | the corrected loop (equality tested first): after an `equal` stop, a member equal to c is still in the list |
| SkewboidFrontier.UpdateParetoEqualsFirst | ParetoFunctions.cs:202-228 | the corrected update: after an `equal` stop, a member `Dominates` calls equal to c remains |
| SkewboidFrontier.FindParetoCandidatesPlainEqualsFirst | ParetoFunctions.cs:186-194 | the plain builder over the corrected update: no longer than the input and drawn from it |
| SkewboidFrontierFacts.DuplicatesKeptOnce | ParetoFunctions.cs:209-226 | with the corrected update, exactly one of the two tolerance-equal candidates remains |
| Bracket.Secant | ParetoFunctions.cs:76 | the secant alpha lies strictly inside the bracket, at least a (numatLB - numatUB)-th of its width from either end |
| Bracket.Progress | ParetoFunctions.cs:73-88 | every step that misses the target lowers a non-negative integer measure of the bracket width, so the loop ends |
| SkewboidSearch.SecantSearch | ParetoFunctions.cs:68-91 | the loop runs at least once, so the NaN check never throws. Afterwards the bracket has more than `numKeep` members at its low end (or is at -1) and fewer at its high end. The returned alpha is a hit strictly inside it, or the end on the returned side once the width is at most 0.0001 |
| SkewboidSearch.FindGivenNumCandidates | ParetoFunctions.cs:21-92 | fails exactly on an empty list; returns the alpha-0 frontier if it has `numKeep` members; returns the input at alpha -1 if even that cannot exceed `numKeep`; returns the alpha-1 frontier if it still has `numKeep` or more. Otherwise the secant search runs: the returned alpha lies strictly between -1 and 1 and is not 0, and the bracket lies in [-1, 0] when the alpha-0 frontier was too small and in [0, 1] when it was too large, with the secant search's guarantees about its ends. Members are always the frontier at the returned alpha, except at -1. The bracket is reported only as ghost outputs, since the source does not return it |
| AdjustableFrontier.InitializeWeightsAndDirections | AdjustablePareto/ParetoFunctions.cs:117-129 | fails exactly on an empty list; the objective count is the first candidate's; weights are kept; directions are the caller's or all Minimize |
| AdjustableFrontier.WeightedFrom | AdjustablePareto/ParetoFunctions.cs:151-170 | the lens loop is true iff c1 loses none of the remaining lenses under the weighted sums |
| AdjustableFrontier.DominatesWithWeights | AdjustablePareto/ParetoFunctions.cs:149-171 | true iff in every lens dir·(w_i·c1_i + alpha·Σ_{j≠i} w_j·c1_j) is not below the same for c2; every candidate dominates itself |
| AdjustableFrontier.RatioSumSelf | AdjustablePareto/ParetoFunctions.cs:196-202 | a candidate's ratio sum against itself is 1 + (m-1)·alpha, the bound the comparator uses |
| AdjustableFrontier.RatioFrom | AdjustablePareto/ParetoFunctions.cs:194-206 | the lens loop is true iff no remaining lens's ratio sum falls on the losing side of (m-1)·alpha + 1 |
| AdjustableFrontier.Dominates | AdjustablePareto/ParetoFunctions.cs:192-207 | true iff no lens is lost against (m-1)·alpha + 1; every candidate dominates itself |
| AdjustableFrontier.ScanDominatesFirst | AdjustablePareto/ParetoFunctions.cs:176-183 | every member the loop drops is dominated by c; c ends up in the list iff every member either is dominated by c or does not dominate c; c is then incomparable with every other member. Exactly: when c is appended, it follows the members it does not dominate; when the last member that dominates c without being dominated returns, the members before it are untouched and exactly those from it on that c dominates are gone |
| AdjustableFrontier.Update | AdjustablePareto/ParetoFunctions.cs:174-184 | the older update rule for any relation: removed members are dominated by c; c is appended iff no member that c does not dominate dominates it; the list stays a subsequence of the old list plus c. Exactly: the appended list is the members c does not dominate, then c; at a rejection by the last member that dominates c without being dominated, the members before it are untouched and exactly those from it on that c dominates are gone |
| AdjustableFrontier.UpdateParetoWithWeights | AdjustablePareto/ParetoFunctions.cs:131-141 | the update rule under `dominatesWithWeights`, with the exact list left on appending and on rejection |
| AdjustableFrontier.UpdatePareto | AdjustablePareto/ParetoFunctions.cs:174-184 | the update rule under the ratio `dominates`, with the exact list left on appending and on rejection |
| AdjustableFrontier.RatioAtZero | AdjustablePareto/ParetoFunctions.cs:192-207 | at alpha 0 the ratio `dominates` is not Pareto dominance: [1] dominates itself, and [2] dominates [-1] when minimising, which `DominatesDiversity` rejects |
| AdjustableFrontier.IdenticalMemberReplaced | AdjustablePareto/ParetoFunctions.cs:174-184 | a member with exactly c's objectives is removed and c is appended |
| AdjustableFrontier.UpdateKeepsIncomparable | AdjustablePareto/ParetoFunctions.cs:174-184 | an update keeps a list in which no member dominates another |
| AdjustableFrontier.Fold | AdjustablePareto/ParetoFunctions.cs:31-36 | the folded list is drawn from the input without duplication, in input order (for distinct candidates), and no member dominates another |
| AdjustableFrontier.FindParetoCandidates | AdjustablePareto/ParetoFunctions.cs:14-39 | fails exactly on an empty list; otherwise a subsequence of the input in which no member dominates another under the relation the weights select |
| AdjustableSearch.FindGivenNumCandidates | AdjustablePareto/ParetoFunctions.cs:51-115 | the same early exits, the same forced secant search when none applies, and the same bracket guarantees as the newer search, with every frontier computed under all-Minimize directions; the caller's direction list, of any length, is never used |

## Left out

- Floating point: doubles are `real`. Rounding, NaN and infinity are not
  modelled. That includes the NaN sentinel `alphaTarget` (an `Option`
  here) and the infinities from dividing by a zero objective. A zero
  objective is excluded by a requirement wherever the source divides by
  one.
- `List.Remove` by reference: removal is modelled at the scanned index. The
  ordering results assume c is not already in the list (distinct candidates).
- The thin overloads `FindParetoCandidatesDiverse` (ParetoFunctions.cs:100-121)
  and the `FindParetoCandidates` overloads at ParetoFunctions.cs:125-153: they
  only fill in default weights or all-Minimize directions before calling the
  builder modelled here.
- A null direction list passed to the plain builder (ParetoFunctions.cs:186-192)
  throws in the source. The model takes the directions as a required argument.
- Dimension mismatches. Candidates of unequal width and direction or weight
  lists shorter than the objective count are excluded by requirements
  (`Objectives.Conforms`, `Objectives.Admissible` and the width conditions of
  the comparators). What the source does with them depends on which side is
  shorter and on which pairs are skipped:
  - In the newer updates the loops run over the newcomer's objectives. The
    weighted and diversity comparators are bounded by
    `numObjectives = c.Objectives.Count()` (ParetoFunctions.cs:243, 256, 258,
    291, 296, 332, 335, 385 and 388), and the plain comparator walks its first
    argument, which is the newcomer (ParetoFunctions.cs:210 and 421-424). So a
    member's extra objectives are ignored, and only a newcomer wider than a
    member reads past that member's end (ParetoFunctions.cs:337-338, 392-398
    and 423-424). The weighted comparator reads `weights[j]` for every index
    below the newcomer's width, skipped or not (ParetoFunctions.cs:339).
  - `CheckIfEqual` walks its first argument, which in the diversity update is
    the member (ParetoFunctions.cs:248 and 267-271). There the newcomer's extra
    objectives are ignored, and a narrower newcomer runs its enumerator past
    the end.
  - Directions are read at different rates. The plain comparator reads one per
    non-skipped pair (ParetoFunctions.cs:433), and the weighted one reads
    `optDirections[j]` only for non-skipped pairs (ParetoFunctions.cs:346). A
    short direction list therefore fails there only when more pairs are not
    skipped than it has entries. The diversity comparator reads every index
    below `numObjectives` (ParetoFunctions.cs:392 and 397).
  - The older comparators loop to the first candidate's width `numObjectives`
    (AdjustablePareto/ParetoFunctions.cs:20, 119, 151, 154, 194 and 198). A wider
    candidate has its extra objectives ignored. A narrower one is read past its
    end, and so is a short weight or direction list
    (AdjustablePareto/ParetoFunctions.cs:158-165, 167, 200-203).
- The unused loop counter `k` of both searches.
- Skewboid/SkewboidExcellAddin.cs and Program.cs: spreadsheet and console I/O.
  The candidate classes contribute only the direction encoding.
- Whether the frontier shrinks as alpha grows depends on the data and is not a
  theorem of the code. The secant search is modelled without assuming it, and
  its guarantees are stated about the bracket it keeps.
- SkewboidFrontierFacts.PlainFrontierApart: stated only without `keepEquals`.
  With `keepEquals` the scan stops at the equal member and never compares c with
  earlier members, so incomparability is not promised.
- SkewboidFrontierFacts.DiversityFrontierSeparate: stated only without
  `keepEquals`, for the same reason.
- SkewboidFrontier.FrontierInOrder: stated only without `keepEquals`. With it,
  c is inserted next to an equal member rather than appended.
- The meaning of the weighted `equal` flag follows the code: it is cleared by
  any objective pair that is not skipped, so it means "every pair is
  indistinct", not "the last pair is".

## Findings

| source | as written | input that shows it | evidently intended | confidence | as-written member | corrected member |
|---|---|---|---|---|---|---|
| ParetoFunctions.cs:209-226 | `Dominates` returns 1 when every objective pair is indistinct, so `UpdatePareto` removes the equal member before it tests `equal`. Without `keepEquals` the newcomer is then dropped too. With it, the newcomer replaces the member instead of going next to it | two candidates with objectives [1.0], one Minimize objective, tolerance 0.0001, `keepEquals` false: the plain frontier is empty | test `equal` first, as `UpdateParetoDiversity` does. The member stays, which matches the comment about inserting c next to the existing candidate | high; not executed | SkewboidFrontierFacts.DuplicatesVanish | SkewboidFrontier.UpdateParetoEqualsFirst |

=== FILE: adjustable_frontier.dfy ===
/** The frontier builder of the older generation, AdjustablePareto/ParetoFunctions.cs.
    Its configuration lives in static fields there (`numObjectives`, `alpha`,
    `weights`, `optDirections`); here they are explicit parameters. Its two
    comparisons answer a plain yes/no, non-strictly, so every candidate dominates
    itself; its updates remove what c dominates, stop at the first member that
    dominates c, and otherwise append c. */
module AdjustableFrontier {
  import opened Objectives
  import opened Sequences
  import SD = SkewboidDominance
  import SF = SkewboidFrontier
  import Facts = SkewboidFrontierFacts

  /** What `initializeWeightsAndDirections` stores. */
  datatype Settings = Settings(numObjectives: nat, weights: Option<seq<real>>, dirs: seq<Direction>)

  /** `initializeWeightsAndDirections`: the objective count of the first candidate
      (an empty list throws), the weights as given, and the caller's directions or
      all Minimize when there are none. */
  function InitializeWeightsAndDirections(cands: seq<Candidate>, weights: Option<seq<real>>,
                                          optDirections: Option<seq<Direction>>): (r: Result<Settings, Error>)
    ensures r.Failure? <==> |cands| == 0
    ensures r.Success? ==> r.value.numObjectives == Width(cands) && r.value.weights == weights
    ensures r.Success? && optDirections.Some? ==> r.value.dirs == optDirections.value
    ensures r.Success? && optDirections.None? ==>
              |r.value.dirs| == Width(cands) && forall k | 0 <= k < Width(cands) :: r.value.dirs[k] == Minimize
  {
    if |cands| == 0 then Failure(EmptyInput)
    else
      var m := |cands[0].objectives|;
      Success(Settings(m, weights, Directions(optDirections, m)))
  }

  /** c does not lose a lens: the test `dir * c1Value < dir * c2Value` fails. */
  predicate Holds(d: Direction, c1Value: real, c2Value: real) {
    !(d.Value() * c1Value < d.Value() * c2Value)
  }

  // ---------------------------------------------------------------- weighted

  /** `c1Value` of `dominatesWithWeights` in lens `lens` over the first `n`
      objectives: the lens's weighted objective plus alpha times the others'. */
  function WeightedSum(o: seq<real>, lens: nat, alpha: real, weights: seq<real>, n: nat): real
    requires n <= |o| && n <= |weights|
  {
    if n == 0 then 0.0
    else WeightedSum(o, lens, alpha, weights, n - 1) + SD.Coef(alpha, lens, n - 1) * weights[n - 1] * o[n - 1]
  }

  /** The lens loop of `dominatesWithWeights` from lens `lens` on: false at the
      first lens c1 loses. */
  function WeightedFrom(o1: seq<real>, o2: seq<real>, alpha: real, dirs: seq<Direction>, weights: seq<real>, lens: nat): (r: bool)
    requires |o1| == |o2| <= |dirs| && |o1| <= |weights| && lens <= |o1|
    ensures r <==> forall k | lens <= k < |o1| ::
                     Holds(dirs[k], WeightedSum(o1, k, alpha, weights, |o1|), WeightedSum(o2, k, alpha, weights, |o1|))
    decreases |o1| - lens
  {
    if lens == |o1| then true
    else if !Holds(dirs[lens], WeightedSum(o1, lens, alpha, weights, |o1|), WeightedSum(o2, lens, alpha, weights, |o1|)) then false
    else WeightedFrom(o1, o2, alpha, dirs, weights, lens + 1)
  }

  /** `dominatesWithWeights(c1, c2)`: c1 loses no lens. Ties count for c1, so
      every candidate dominates itself. */
  function DominatesWithWeights(o1: seq<real>, o2: seq<real>, alpha: real, dirs: seq<Direction>, weights: seq<real>): (r: bool)
    requires |o1| == |o2| <= |dirs| && |o1| <= |weights|
    ensures r <==> forall k | 0 <= k < |o1| ::
                     Holds(dirs[k], WeightedSum(o1, k, alpha, weights, |o1|), WeightedSum(o2, k, alpha, weights, |o1|))
    ensures o1 == o2 ==> r
  {
    WeightedFrom(o1, o2, alpha, dirs, weights, 0)
  }

  // ---------------------------------------------------------------- ratio

  /** `c1Value` of the ratio `dominates` in lens `lens` over the first `n`
      objectives: c1's objectives divided by c2's, the lens's at full weight and
      the others' at alpha. */
  function RatioSum(o1: seq<real>, o2: seq<real>, lens: nat, alpha: real, n: nat): real
    requires n <= |o1| && n <= |o2| && NoZero(o2)
  {
    if n == 0 then 0.0
    else RatioSum(o1, o2, lens, alpha, n - 1) + SD.Coef(alpha, lens, n - 1) * (o1[n - 1] / o2[n - 1])
  }

  /** `c2Value` of the ratio `dominates`: the sum c1 would reach if it were c2. */
  function RatioBound(alpha: real, m: nat): real {
    (m - 1) as real * alpha + 1.0
  }

  /** A candidate's ratio sum against itself is the sum of the lens weights:
      1 + (n - 1) alpha when the lens is among the first n objectives. */
  lemma {:induction false} RatioSumSelf(o: seq<real>, lens: nat, alpha: real, n: nat)
    requires n <= |o| && NoZero(o)
    ensures RatioSum(o, o, lens, alpha, n) == if lens < n then RatioBound(alpha, n) else n as real * alpha
  {
    if n > 0 {
      RatioSumSelf(o, lens, alpha, n - 1);
      assert o[n - 1] / o[n - 1] == 1.0;
    }
  }

  /** The lens loop of the ratio `dominates` from lens `lens` on. */
  function RatioFrom(o1: seq<real>, o2: seq<real>, alpha: real, dirs: seq<Direction>, lens: nat): (r: bool)
    requires |o1| == |o2| <= |dirs| && NoZero(o2) && lens <= |o1|
    ensures r <==> forall k | lens <= k < |o1| ::
                     Holds(dirs[k], RatioSum(o1, o2, k, alpha, |o1|), RatioBound(alpha, |o1|))
    ensures o1 == o2 ==> r
    decreases |o1| - lens
  {
    if lens == |o1| then true
    else
      assert o1 == o2 ==> RatioSum(o1, o2, lens, alpha, |o1|) == RatioBound(alpha, |o1|) by {
        if o1 == o2 { RatioSumSelf(o1, lens, alpha, |o1|); }
      }
      if !Holds(dirs[lens], RatioSum(o1, o2, lens, alpha, |o1|), RatioBound(alpha, |o1|)) then false
      else RatioFrom(o1, o2, alpha, dirs, lens + 1)
  }

  /** The ratio `dominates(c1, c2)`: in no lens does c1's ratio sum fall on the
      losing side of `(numObjectives - 1) * alpha + 1`. c2's objectives are the
      divisors. Every candidate dominates itself. */
  function Dominates(o1: seq<real>, o2: seq<real>, alpha: real, dirs: seq<Direction>): (r: bool)
    requires |o1| == |o2| <= |dirs| && NoZero(o2)
    ensures r <==> forall k | 0 <= k < |o1| ::
                     Holds(dirs[k], RatioSum(o1, o2, k, alpha, |o1|), RatioBound(alpha, |o1|))
    ensures o1 == o2 ==> r
  {
    RatioFrom(o1, o2, alpha, dirs, 0)
  }

  /** At alpha 0 the ratio comparison is not Pareto dominance, unlike the newer
      `DominatesDiversity`: it holds between a candidate and itself, and a negative
      divisor turns it round, so [2] dominates [-1] when minimising. */
  lemma RatioAtZero()
    ensures Dominates([1.0], [1.0], 0.0, [Minimize])
    ensures Dominates([2.0], [-1.0], 0.0, [Minimize])
    ensures !SD.DominatesDiversity([2.0], [-1.0], 0.0, [Minimize])
  {
    SD.DiversityAtZeroIsPareto([2.0], [-1.0], [Minimize]);
  }

  // ---------------------------------------------------------------- on candidates

  /** `dominatesWithWeights` on candidates; pairs the builder never compares are unrelated. */
  function WeightedDominance(alpha: real, dirs: seq<Direction>, weights: seq<real>): (Candidate, Candidate) -> bool {
    (c1: Candidate, c2: Candidate) =>
      |c1.objectives| == |c2.objectives| <= |dirs| && |c1.objectives| <= |weights| &&
      DominatesWithWeights(c1.objectives, c2.objectives, alpha, dirs, weights)
  }

  /** The ratio `dominates` on candidates. */
  function RatioDominance(alpha: real, dirs: seq<Direction>): (Candidate, Candidate) -> bool {
    (c1: Candidate, c2: Candidate) =>
      |c1.objectives| == |c2.objectives| <= |dirs| && NoZero(c2.objectives) &&
      Dominates(c1.objectives, c2.objectives, alpha, dirs)
  }

  /** Neither of x and y dominates the other. */
  function Incomparable(dominates: (Candidate, Candidate) -> bool): (Candidate, Candidate) -> bool {
    (x: Candidate, y: Candidate) => !dominates(x, y) && !dominates(y, x)
  }

  /** The older updates' tests as a comparison of c against a member: decision 1
      when c dominates it (tested first), -1 when it dominates c, never `equal`. */
  function DominatesFirst(dominates: (Candidate, Candidate) -> bool): SF.Comparator {
    (c: Candidate, pc: Candidate) =>
      SD.Comparison(if dominates(c, pc) then 1 else if dominates(pc, c) then -1 else 0, false)
  }

  /** What the generic compare-scan keeps under the older tests is what c does not dominate. */
  lemma {:induction false} UndominatedFirst(dominates: (Candidate, Candidate) -> bool, c: Candidate, s: seq<Candidate>)
    ensures SF.Undominated(DominatesFirst(dominates), c, s) == SF.NotDominated(dominates, c, s)
    decreases |s|
  {
    if |s| > 0 {
      UndominatedFirst(dominates, c, s[..|s| - 1]);
    }
  }

  /** `P[j]` is where the older scan of P from the back returns: the last member
      that dominates c without c dominating it. */
  predicate RejectedAt(dominates: (Candidate, Candidate) -> bool, c: Candidate, P: seq<Candidate>, j: int) {
    && 0 <= j < |P|
    && !dominates(c, P[j]) && dominates(P[j], c)
    && forall k | j < k < |P| :: dominates(c, P[k]) || !dominates(P[k], c)
  }

  /** The generic scan's stop at a member that rejects c, in the older terms. */
  lemma RejectedLeaves(dominates: (Candidate, Candidate) -> bool, prefix: seq<Candidate>, suffix: seq<Candidate>,
                       c: Candidate, u: SF.Update, j: int)
    requires RejectedAt(dominates, c, prefix, j)
    requires SF.StoppedAt(DominatesFirst(dominates), false, prefix, suffix, c, u, j)
    ensures u.members == prefix[..j] + SF.NotDominated(dominates, c, prefix[j..]) + suffix
  {
    UndominatedFirst(dominates, c, prefix[j..]);
  }

  /** What the older scan does, from index `|prefix| - 1` down, when the members
      already looked at (`suffix`) are incomparable with c: every member it drops
      is dominated by c; c ends up in the list exactly when no member that c does
      not dominate dominates it; and then c is incomparable with every other member. */
  lemma ScanDominatesFirst(dominates: (Candidate, Candidate) -> bool,
                           prefix: seq<Candidate>, suffix: seq<Candidate>, c: Candidate)
    requires forall x | x in suffix :: Incomparable(dominates)(x, c)
    ensures var r := SF.ScanCompare(DominatesFirst(dominates), false, prefix, suffix, c).members;
            forall x | x in prefix + suffix && x !in r :: dominates(c, x)
    ensures var r := SF.ScanCompare(DominatesFirst(dominates), false, prefix, suffix, c).members;
            c !in prefix + suffix ==> (c in r <==> forall x | x in prefix :: dominates(c, x) || !dominates(x, c))
    ensures var r := SF.ScanCompare(DominatesFirst(dominates), false, prefix, suffix, c).members;
            c !in prefix + suffix && c in r ==> forall x | x in r && x != c :: Incomparable(dominates)(x, c)
    ensures var r := SF.ScanCompare(DominatesFirst(dominates), false, prefix, suffix, c).members;
            (forall x | x in prefix :: dominates(c, x) || !dominates(x, c)) ==>
              r == SF.NotDominated(dominates, c, prefix) + suffix + [c]
    ensures var r := SF.ScanCompare(DominatesFirst(dominates), false, prefix, suffix, c).members;
            forall j | RejectedAt(dominates, c, prefix, j) :: r == prefix[..j] + SF.NotDominated(dominates, c, prefix[j..]) + suffix
  {
    var cmp := DominatesFirst(dominates);
    var u := SF.ScanCompare(cmp, false, prefix, suffix, c);
    SF.ScanCompareRule(cmp, false, prefix, suffix, c);
    SF.ScanCompareStop(cmp, false, prefix, suffix, c);
    if forall x | x in prefix :: dominates(c, x) || !dominates(x, c) {
      SF.ScanCompareAppends(cmp, false, prefix, suffix, c);
      UndominatedFirst(dominates, c, prefix);
    }
    forall j | RejectedAt(dominates, c, prefix, j)
      ensures u.members == prefix[..j] + SF.NotDominated(dominates, c, prefix[j..]) + suffix
    {
      assert SF.LastStop(cmp, c, prefix, j);
      RejectedLeaves(dominates, prefix, suffix, c, u, j);
    }
    // the older comparison is never `equal`, so the scan never stops at an equal member
    assert !u.equalsExisting;
  }

  /** One older update (`UpdatePareto` or `UpdateParetoWithWeights`, by the
      relation given): walk the list from the back, remove each member c dominates,
      return at the first member that dominates c, and append c if none did. */
  function Update(P: seq<Candidate>, c: Candidate, dominates: (Candidate, Candidate) -> bool): (r: seq<Candidate>)
    ensures |r| <= |P| + 1
    ensures forall x | x in r :: x in P || x == c
    ensures multiset(r) <= multiset(P) + multiset{c}
    ensures c !in P ==> IsSubseq(r, P + [c])
    ensures forall x | x in P && x !in r :: dominates(c, x)
    ensures c !in P ==> (c in r <==> forall x | x in P :: dominates(c, x) || !dominates(x, c))
    ensures c !in P && c in r ==> forall x | x in r && x != c :: Incomparable(dominates)(x, c)
    ensures (forall x | x in P :: dominates(c, x) || !dominates(x, c)) ==> r == SF.NotDominated(dominates, c, P) + [c]
    ensures forall j | RejectedAt(dominates, c, P, j) :: r == P[..j] + SF.NotDominated(dominates, c, P[j..])
  {
    var cmp := DominatesFirst(dominates);
    assert P + [] == P;
    assert SF.NotDominated(dominates, c, P) + [] == SF.NotDominated(dominates, c, P);
    assert forall j | RejectedAt(dominates, c, P, j) :: P[..j] + SF.NotDominated(dominates, c, P[j..]) + [] == P[..j] + SF.NotDominated(dominates, c, P[j..]);
    SF.ScanCompareCount(cmp, false, P, [], c);
    ScanDominatesFirst(dominates, P, [], c);
    if c !in P then
      SF.ScanCompareOrder(cmp, false, P, [], c);
      SF.ScanCompare(cmp, false, P, [], c).members
    else SF.ScanCompare(cmp, false, P, [], c).members
  }

  /** `UpdateParetoWithWeights` (older). */
  function UpdateParetoWithWeights(P: seq<Candidate>, c: Candidate, alpha: real, dirs: seq<Direction>, weights: seq<real>): (r: seq<Candidate>)
    ensures c !in P ==> IsSubseq(r, P + [c])
    ensures forall x | x in P && x !in r :: WeightedDominance(alpha, dirs, weights)(c, x)
    ensures c !in P ==> (c in r <==> forall x | x in P ::
              WeightedDominance(alpha, dirs, weights)(c, x) || !WeightedDominance(alpha, dirs, weights)(x, c))
    ensures (forall x | x in P :: WeightedDominance(alpha, dirs, weights)(c, x) || !WeightedDominance(alpha, dirs, weights)(x, c)) ==>
              r == SF.NotDominated(WeightedDominance(alpha, dirs, weights), c, P) + [c]
    ensures forall j | RejectedAt(WeightedDominance(alpha, dirs, weights), c, P, j) ::
              r == P[..j] + SF.NotDominated(WeightedDominance(alpha, dirs, weights), c, P[j..])
  {
    Update(P, c, WeightedDominance(alpha, dirs, weights))
  }

  /** `UpdatePareto` (older, ratio comparison). */
  function UpdatePareto(P: seq<Candidate>, c: Candidate, alpha: real, dirs: seq<Direction>): (r: seq<Candidate>)
    ensures c !in P ==> IsSubseq(r, P + [c])
    ensures forall x | x in P && x !in r :: RatioDominance(alpha, dirs)(c, x)
    ensures c !in P ==> (c in r <==> forall x | x in P ::
              RatioDominance(alpha, dirs)(c, x) || !RatioDominance(alpha, dirs)(x, c))
    ensures (forall x | x in P :: RatioDominance(alpha, dirs)(c, x) || !RatioDominance(alpha, dirs)(x, c)) ==>
              r == SF.NotDominated(RatioDominance(alpha, dirs), c, P) + [c]
    ensures forall j | RejectedAt(RatioDominance(alpha, dirs), c, P, j) ::
              r == P[..j] + SF.NotDominated(RatioDominance(alpha, dirs), c, P[j..])
  {
    Update(P, c, RatioDominance(alpha, dirs))
  }

  /** A member equal to c in every objective is dominated by c, so it is replaced
      by c at the end of the list. */
  lemma IdenticalMemberReplaced(P: seq<Candidate>, c: Candidate, x: Candidate, alpha: real, dirs: seq<Direction>)
    requires x in P && c !in P && x.objectives == c.objectives
    requires |c.objectives| <= |dirs| && NoZero(c.objectives)
    requires Pairwise(P, Incomparable(RatioDominance(alpha, dirs)))
    ensures x !in UpdatePareto(P, c, alpha, dirs)
    ensures c in UpdatePareto(P, c, alpha, dirs)
  {
    var dom := RatioDominance(alpha, dirs);
    var r := UpdatePareto(P, c, alpha, dirs);
    forall y | y in P && y != x
      ensures !dom(y, c)
    {
      assert dom(y, c) == dom(y, x);
      PairwiseMembers(P, x, y, Incomparable(dom));
    }
    assert dom(c, x);
    assert c in r;
    assert Incomparable(dom)(x, c) ==> !dom(c, x);
  }

  // ---------------------------------------------------------------- the builder

  /** Pairwise incomparability under `dominates` is the incomparability the
      generic scan keeps for the comparison `DominatesFirst(dominates)`. */
  lemma IncomparableIsApart(s: seq<Candidate>, dominates: (Candidate, Candidate) -> bool)
    ensures Pairwise(s, Incomparable(dominates)) <==> Pairwise(s, Facts.Apart(DominatesFirst(dominates)))
  {
    forall i, j | 0 <= i < j < |s|
      ensures Incomparable(dominates)(s[i], s[j]) == Facts.Apart(DominatesFirst(dominates))(s[i], s[j])
    {
    }
  }

  /** The older updates keep a list in which no member dominates another. */
  lemma UpdateKeepsIncomparable(P: seq<Candidate>, c: Candidate, dominates: (Candidate, Candidate) -> bool)
    requires Pairwise(P, Incomparable(dominates))
    ensures Pairwise(Update(P, c, dominates), Incomparable(dominates))
  {
    var cmp := DominatesFirst(dominates);
    IncomparableIsApart(P, dominates);
    assert P + [] == P;
    Facts.ScanCompareApart(cmp, false, P, [], c);
    IncomparableIsApart(Update(P, c, dominates), dominates);
  }

  /** The relation the older builder compares with: `dominatesWithWeights` when
      weights are given, the ratio `dominates` otherwise. */
  function Dominance(alpha: real, dirs: seq<Direction>, weights: Option<seq<real>>): (Candidate, Candidate) -> bool {
    match weights
    case Some(w) => WeightedDominance(alpha, dirs, w)
    case None => RatioDominance(alpha, dirs)
  }

  /** The fold of the older updates over the candidates in input order. */
  function Fold(cands: seq<Candidate>, dominates: (Candidate, Candidate) -> bool): (r: seq<Candidate>)
    ensures |r| <= |cands|
    ensures forall x | x in r :: x in cands
    ensures multiset(r) <= multiset(cands)
    ensures Distinct(cands) ==> IsSubseq(r, cands)
    ensures Pairwise(r, Incomparable(dominates))
    decreases |cands|
  {
    if |cands| == 0 then []
    else
      var n := |cands| - 1;
      var c := cands[n];
      assert cands == cands[..n] + [c];
      assert multiset(cands) == multiset(cands[..n]) + multiset{c};
      var P := Fold(cands[..n], dominates);
      UpdateKeepsIncomparable(P, c, dominates);
      var r := Update(P, c, dominates);
      if Distinct(cands) then SF.InOrder(cands, P, r); r else r
  }

  /** `FindParetoCandidates` (older): an empty list throws; otherwise the settings
      come from the first candidate and the candidates are folded in input order.
      The result is a subsequence of the input in which no member dominates another. */
  function FindParetoCandidates(cands: seq<Candidate>, alpha: real, weights: Option<seq<real>>,
                                optDirections: Option<seq<Direction>>): (r: Result<seq<Candidate>, Error>)
    requires Admissible(cands, weights, optDirections)
    ensures r.Failure? <==> |cands| == 0
    ensures r.Success? ==> |r.value| <= |cands| && forall x | x in r.value :: x in cands
    ensures r.Success? ==> multiset(r.value) <= multiset(cands)
    ensures r.Success? && Distinct(cands) ==> IsSubseq(r.value, cands)
    ensures r.Success? ==>
              Pairwise(r.value, Incomparable(Dominance(alpha, Directions(optDirections, Width(cands)), weights)))
  {
    match InitializeWeightsAndDirections(cands, weights, optDirections)
    case Failure(e) => Failure(e)
    case Success(settings) => Success(Fold(cands, Dominance(alpha, settings.dirs, settings.weights)))
  }
}

=== FILE: adjustable_search.dfy ===
/** `FindGivenNumCandidates` of AdjustablePareto/ParetoFunctions.cs. It follows
    the newer search step for step, but every frontier it computes is built with
    the directions left out, which resets them to all Minimize: the caller's
    directions are read and then never used. */
module AdjustableSearch {
  import opened Objectives
  import opened Bracket
  import SkewboidSearch
  import AF = AdjustableFrontier

  /** The frontier the older search computes at one alpha: directions omitted. */
  function FrontierAt(cands: seq<Candidate>, alpha: real, weights: Option<seq<real>>): (r: seq<Candidate>)
    requires |cands| > 0 && Admissible(cands, weights, None)
    ensures |r| <= |cands|
    ensures forall x | x in r :: x in cands
  {
    AF.FindParetoCandidates(cands, alpha, weights, None).value
  }

  /** `FrontierAt` as a function of alpha alone (empty for inputs the search rejects). */
  function Frontier(cands: seq<Candidate>, weights: Option<seq<real>>): real -> seq<Candidate> {
    (alpha: real) =>
      if |cands| > 0 && Admissible(cands, weights, None) then FrontierAt(cands, alpha, weights) else []
  }

  /** The older search: the same early exits and secant bracket as the newer one;
      an empty list throws in `initializeWeightsAndDirections`. The members it
      returns, and the bracket it reports, are those of the all-Minimize frontier
      whatever `optDirections` says. */
  method FindGivenNumCandidates(cands: seq<Candidate>, numKeep: int, weights: Option<seq<real>>,
                                optDirections: Option<seq<Direction>>)
    returns (r: Result<SkewboidSearch.Outcome, Error>, ghost alphaLB: real, ghost alphaUB: real)
    requires Admissible(cands, weights, None)
    ensures r.Failure? <==> |cands| == 0
    ensures r.Success? && |FrontierAt(cands, 0.0, weights)| == numKeep ==>
              r.value == SkewboidSearch.Outcome(FrontierAt(cands, 0.0, weights), 0.0)
    ensures r.Success? && |FrontierAt(cands, 0.0, weights)| < numKeep && |cands| <= numKeep ==>
              r.value == SkewboidSearch.Outcome(cands, -1.0)
    ensures r.Success? && |FrontierAt(cands, 0.0, weights)| > numKeep && |FrontierAt(cands, 1.0, weights)| >= numKeep ==>
              r.value == SkewboidSearch.Outcome(FrontierAt(cands, 1.0, weights), 1.0)
    ensures r.Success? && r.value.alpha != -1.0 ==> r.value.members == FrontierAt(cands, r.value.alpha, weights)
    ensures r.Success? ==>
              var n0 := |FrontierAt(cands, 0.0, weights)|;
              var n1 := |FrontierAt(cands, 1.0, weights)|;
              n0 != numKeep && !(n0 < numKeep && |cands| <= numKeep) && !(n0 > numKeep && n1 >= numKeep) ==>
                && -1.0 < r.value.alpha < 1.0 && r.value.alpha != 0.0
                && (n0 < numKeep ==> -1.0 <= alphaLB && alphaUB <= 0.0)
                && (n0 > numKeep ==> 0.0 <= alphaLB && alphaUB <= 1.0)
    ensures r.Success? && -1.0 < r.value.alpha < 1.0 && r.value.alpha != 0.0 ==>
              && -1.0 <= alphaLB < alphaUB <= 1.0
              && |FrontierAt(cands, alphaUB, weights)| < numKeep
              && (alphaLB == -1.0 || |FrontierAt(cands, alphaLB, weights)| > numKeep)
              && (|r.value.members| == numKeep ==> alphaLB < r.value.alpha < alphaUB)
              && (|r.value.members| > numKeep ==> r.value.alpha == alphaLB && alphaUB - alphaLB <= AlphaTolerance)
              && (|r.value.members| < numKeep ==> r.value.alpha == alphaUB && alphaUB - alphaLB <= AlphaTolerance)
  {
    alphaLB, alphaUB := 0.0, 0.0;
    var settings := AF.InitializeWeightsAndDirections(cands, weights, optDirections);
    if settings.Failure? {
      return Failure(settings.error), alphaLB, alphaUB;
    }
    var n := |cands|;
    var frontier := Frontier(cands, weights);
    var paretoSet := frontier(0.0);
    var numTarget := |paretoSet|;
    if numTarget == numKeep {
      return Success(SkewboidSearch.Outcome(paretoSet, 0.0)), alphaLB, alphaUB;
    }
    var lb, ub, numAtLB, numAtUB;
    if numTarget < numKeep {
      lb, numAtLB := -1.0, n;
      ub, numAtUB := 0.0, numTarget;
      alphaLB, alphaUB := lb, ub;
      if numAtLB <= numKeep {
        return Success(SkewboidSearch.Outcome(cands, lb)), alphaLB, alphaUB;
      }
    } else {
      lb, numAtLB := 0.0, numTarget;
      ub := 1.0;
      paretoSet := frontier(ub);
      numAtUB := |paretoSet|;
      alphaLB, alphaUB := lb, ub;
      if numAtUB >= numKeep {
        return Success(SkewboidSearch.Outcome(paretoSet, ub)), alphaLB, alphaUB;
      }
    }
    var members, alpha, lbEnd, ubEnd := SkewboidSearch.SecantSearch(frontier, n, numKeep, numTarget, lb, ub, numAtLB, numAtUB);
    alphaLB, alphaUB := lbEnd, ubEnd;
    return Success(SkewboidSearch.Outcome(members, alpha)), alphaLB, alphaUB;
  }
}

=== FILE: bracket.dfy ===
/** The alpha bracket of `FindGivenNumCandidates`: the secant step between the
    bracket ends and the argument that the search loop stops. */
module Bracket {

  /** `alphaTolerance`: the search stops once the bracket is no wider than this. */
  const AlphaTolerance: real := 0.0001

  /** The secant step: the alpha at which the line through (lb, nLB) and (ub, nUB)
      reaches `numKeep`. It lands strictly inside the bracket, at least a
      (nLB - nUB)-th of the width away from either end. */
  function Secant(lb: real, ub: real, nLB: int, nUB: int, numKeep: int): (t: real)
    requires lb < ub && nUB < numKeep < nLB
    ensures lb + (ub - lb) / (nLB - nUB) as real <= t <= ub - (ub - lb) / (nLB - nUB) as real
    ensures lb < t < ub
  {
    var w := ub - lb;
    var d := (nLB - nUB) as real;
    var a := (nLB - numKeep) as real;
    var t := lb + w * a / d;
    assert w * a / d == (w / d) * a;
    assert (w / d) * a - w / d == (w / d) * (a - 1.0);
    assert w / d > 0.0;
    assert w == (w / d) * d;
    assert w - (w / d) * a - w / d == (w / d) * (d - a - 1.0);
    assert a >= 1.0 && d - a >= 1.0;
    NonnegativeProduct(w / d, d - a - 1.0);
    NonnegativeProduct(w / d, a - 1.0);
    t
  }

  lemma NonnegativeProduct(x: real, y: real)
    requires x >= 0.0 && y >= 0.0
    ensures x * y >= 0.0
  {
  }

  /** The loop variant: the bracket width in units of a `1/n`-th of the tolerance. */
  function Budget(lb: real, ub: real, n: nat): int {
    ((ub - lb) * n as real * 10000.0).Floor
  }

  /** Cutting at least a d-th (d <= n) off a bracket wider than the tolerance
      lowers the budget, which stays non-negative. */
  lemma Progress(lb: real, ub: real, lb2: real, ub2: real, n: nat, d: int)
    requires 0 < d <= n
    requires AlphaTolerance < ub - lb
    requires 0.0 < ub2 - lb2 <= (ub - lb) - (ub - lb) / d as real
    ensures 0 <= Budget(lb2, ub2, n) < Budget(lb, ub, n)
  {
    var w := ub - lb;
    var w2 := ub2 - lb2;
    var N := n as real;
    var D := d as real;
    assert (w / D) * N >= w by {
      assert (w / D) * N - w == (w / D) * (N - D);
    }
    assert w2 * N * 10000.0 <= (w - w / D) * N * 10000.0 by {
      assert (w - w / D) * N * 10000.0 - w2 * N * 10000.0 == ((w - w / D) - w2) * (N * 10000.0);
    }
    assert (w - w / D) * N * 10000.0 == w * N * 10000.0 - (w / D) * N * 10000.0;
    assert (w / D) * N * 10000.0 >= w * 10000.0 by {
      assert (w / D) * N * 10000.0 - w * 10000.0 == ((w / D) * N - w) * 10000.0;
    }
    assert w * 10000.0 > 1.0;
    assert w2 * N * 10000.0 < w * N * 10000.0 - 1.0;
    assert w2 * N * 10000.0 >= 0.0 by {
      assert w2 * (N * 10000.0) >= 0.0;
    }
  }
}

=== FILE: lanes.dfy ===
/** The verdict fold shared by `Dominates` and `DominatesWithWeights` in
    ParetoFunctions.cs: each lane (an objective, or a lens) is won by c1, won by c2,
    or skipped, and two flags that start true are cleared by the lanes. */
module Lanes {

  /** Outcome of one lane. Exact ties are recorded as `SecondWins`: the source's
      `if (c1Value > c2Value) ... else ...` gives them to c2. */
  datatype Lane = Skipped | FirstWins | SecondWins

  /** The pair of flags `c1Dominates` and `c2Dominates`. */
  datatype Tally = Tally(c1Dominates: bool, c2Dominates: bool)

  /** The flags after processing `lanes` in order: a lane won by c1 clears
      `c2Dominates`, any other unskipped lane clears `c1Dominates`. */
  function Flags(lanes: seq<Lane>): (t: Tally)
    ensures t.c1Dominates <==> forall k | 0 <= k < |lanes| :: lanes[k] != SecondWins
    ensures t.c2Dominates <==> forall k | 0 <= k < |lanes| :: lanes[k] != FirstWins
  {
    if |lanes| == 0 then Tally(true, true)
    else
      var t := Flags(lanes[..|lanes| - 1]);
      match lanes[|lanes| - 1]
      case Skipped => t
      case FirstWins => Tally(t.c1Dominates, false)
      case SecondWins => Tally(false, t.c2Dominates)
  }

  /** The integer the comparators return: 1 if c1 dominates, -1 if c2 does, 0 otherwise.
      c1 dominates when it loses no lane (so also when every lane is skipped); c2
      dominates when c1 loses some lane and wins none. */
  function Verdict(lanes: seq<Lane>): (r: int)
    ensures r == 1 <==> forall k | 0 <= k < |lanes| :: lanes[k] != SecondWins
    ensures r == -1 <==> (exists k | 0 <= k < |lanes| :: lanes[k] == SecondWins)
                         && forall k | 0 <= k < |lanes| :: lanes[k] != FirstWins
    ensures r == 0 || r == 1 || r == -1
  {
    var t := Flags(lanes);
    if t.c1Dominates then 1 else if t.c2Dominates then -1 else 0
  }
}

=== FILE: objectives.dfy ===
/** Candidates, optimisation directions and the relative-tolerance tests shared by
    both generations of the Skewboid filter. Doubles are modelled as `real`. */
module Objectives {

  /** The outcome of an operation that can fail. */
  datatype Result<+R, +E> = Success(value: R) | Failure(error: E)

  datatype Option<+T> = None | Some(value: T)

  /** What the source throws on: `First()` or `[0]` of an empty candidate list. */
  datatype Error = EmptyInput

  /** Optimisation sense of one objective. The source casts it to the integer
      -1 (Minimize) or +1 (Maximize) and multiplies objective values by it. */
  datatype Direction = Minimize | Maximize {
    function Value(): real {
      if Minimize? then -1.0 else 1.0
    }
  }

  /** A candidate: an identity (the object reference in the source) and its objective values. */
  datatype Candidate = Candidate(id: nat, objectives: seq<real>)

  /** The direction list used when the caller passes none. */
  function AllMinimize(m: nat): (dirs: seq<Direction>)
    ensures |dirs| == m
    ensures forall k | 0 <= k < m :: dirs[k] == Minimize
  {
    seq(m, _ => Minimize)
  }

  function Abs(x: real): real {
    if x < 0.0 then -x else x
  }

  /** `Math.Sign` as a real: -1, 0 or +1. */
  function Sign(x: real): real {
    if x < 0.0 then -1.0 else if x > 0.0 then 1.0 else 0.0
  }

  /** The pair test of `CheckIfEqual` (non-strict): relative difference within `tol`. */
  predicate WithinTolerance(a: real, b: real, tol: real) {
    2.0 * Abs(a - b) <= tol * (Abs(a) + Abs(b))
  }

  /** The pair test with which `Dominates` and `DominatesWithWeights` skip an objective (strict). */
  predicate Indistinct(a: real, b: real, tol: real) {
    2.0 * Abs(a - b) < tol * (Abs(a) + Abs(b))
  }

  /** Every candidate has exactly `m` objectives. */
  predicate Conforms(cands: seq<Candidate>, m: nat) {
    forall c | c in cands :: |c.objectives| == m
  }

  /** No objective is zero (objectives are divisors in the ratio strategies). */
  predicate NoZero(o: seq<real>) {
    forall k | 0 <= k < |o| :: o[k] != 0.0
  }

  /** No candidate has a zero objective. */
  predicate Nonzero(cands: seq<Candidate>) {
    forall c | c in cands :: NoZero(c.objectives)
  }

  /** The objective count the source reads off the first candidate. */
  function Width(cands: seq<Candidate>): nat {
    if |cands| == 0 then 0 else |cands[0].objectives|
  }

  /** `CheckIfEqual`: walks the objectives in order and answers false at the first
      pair outside the tolerance. */
  function CheckIfEqual(o1: seq<real>, o2: seq<real>, tol: real): (r: bool)
    requires |o1| == |o2|
    ensures r <==> forall k | 0 <= k < |o1| :: WithinTolerance(o1[k], o2[k], tol)
  {
    if |o1| == 0 then true
    else if !WithinTolerance(o1[0], o2[0], tol) then false
    else CheckIfEqual(o1[1..], o2[1..], tol)
  }

  /** The two tolerance tests differ only at the boundary: both are symmetric,
      a strictly-close pair is also within tolerance, two zeros are equal for
      `CheckIfEqual` yet never skipped, and with zero tolerance nothing is skipped. */
  lemma ToleranceTests(a: real, b: real, tol: real)
    ensures WithinTolerance(a, b, tol) <==> WithinTolerance(b, a, tol)
    ensures Indistinct(a, b, tol) <==> Indistinct(b, a, tol)
    ensures Indistinct(a, b, tol) ==> WithinTolerance(a, b, tol)
    ensures WithinTolerance(0.0, 0.0, tol) && !Indistinct(0.0, 0.0, tol)
    ensures !Indistinct(a, b, 0.0)
    ensures WithinTolerance(a, b, 0.0) <==> a == b
  {
  }

  /** `CheckIfEqual` is symmetric in its two candidates. */
  lemma CheckIfEqualSymmetric(o1: seq<real>, o2: seq<real>, tol: real)
    requires |o1| == |o2|
    ensures CheckIfEqual(o1, o2, tol) == CheckIfEqual(o2, o1, tol)
  {
    if CheckIfEqual(o1, o2, tol) != CheckIfEqual(o2, o1, tol) {
      var k :| 0 <= k < |o1| && WithinTolerance(o1[k], o2[k], tol) != WithinTolerance(o2[k], o1[k], tol);
      ToleranceTests(o1[k], o2[k], tol);
    }
  }

  /** The directions used: the caller's, or all Minimize when the caller passes none. */
  function Directions(optDirections: Option<seq<Direction>>, m: nat): (dirs: seq<Direction>)
    ensures optDirections.None? ==> |dirs| == m && forall k | 0 <= k < m :: dirs[k] == Minimize
    ensures optDirections.Some? ==> dirs == optDirections.value
  {
    if optDirections.None? then AllMinimize(m) else optDirections.value
  }

  /** What the builders need of their inputs: one width for all candidates, covered
      by the directions and weights; no zero objective when no weights are given
      (the diversity and ratio comparisons divide by objectives). */
  predicate Admissible(cands: seq<Candidate>, weights: Option<seq<real>>, optDirections: Option<seq<Direction>>) {
    && Conforms(cands, Width(cands))
    && (optDirections.Some? ==> Width(cands) <= |optDirections.value|)
    && (weights.Some? ==> Width(cands) <= |weights.value|)
    && (weights.None? ==> Nonzero(cands))
  }
}

=== FILE: sequences.dfy ===
/** Order-preserving deletion, removal of one value, and pairwise relations over
    sequences: the vocabulary for saying what a frontier update may change. */
module Sequences {

  /** `s` is `t` with zero or more elements deleted, the rest in their original order. */
  predicate IsSubseq<T(==)>(s: seq<T>, t: seq<T>)
    decreases |t|
  {
    if |s| == 0 then true
    else if |t| == 0 then false
    else (s[0] == t[0] && IsSubseq(s[1..], t[1..])) || IsSubseq(s, t[1..])
  }

  /** `s` with every occurrence of `x` removed. */
  function Strip<T(==)>(s: seq<T>, x: T): (r: seq<T>)
    ensures x !in r
    ensures forall y | y in r :: y in s
    ensures x !in s ==> r == s
  {
    if |s| == 0 then []
    else if s[0] == x then Strip(s[1..], x)
    else [s[0]] + Strip(s[1..], x)
  }

  /** No element occurs twice. */
  predicate Distinct<T(==)>(s: seq<T>) {
    forall i, j | 0 <= i < j < |s| :: s[i] != s[j]
  }

  /** Every earlier element is related to every later one. */
  ghost predicate Pairwise<T>(s: seq<T>, R: (T, T) -> bool) {
    forall i, j | 0 <= i < j < |s| :: R(s[i], s[j])
  }

  lemma {:induction false} SubseqRefl<T>(s: seq<T>)
    ensures IsSubseq(s, s)
    decreases |s|
  {
    if |s| > 0 {
      SubseqRefl(s[1..]);
    }
  }

  lemma SubseqCons<T>(x: T, s: seq<T>, t: seq<T>)
    requires IsSubseq(s, t)
    ensures IsSubseq(s, [x] + t)
  {
    assert ([x] + t)[1..] == t;
  }

  lemma {:induction false} SubseqTrans<T>(a: seq<T>, b: seq<T>, c: seq<T>)
    requires IsSubseq(a, b) && IsSubseq(b, c)
    ensures IsSubseq(a, c)
    decreases |c|
  {
    if |a| == 0 {
    } else if IsSubseq(b, c[1..]) {
      SubseqTrans(a, b, c[1..]);
    } else {
      assert b[0] == c[0] && IsSubseq(b[1..], c[1..]);
      if a[0] == b[0] && IsSubseq(a[1..], b[1..]) {
        SubseqTrans(a[1..], b[1..], c[1..]);
      } else {
        SubseqTrans(a, b[1..], c[1..]);
      }
    }
  }

  /** A common prefix can be put in front of both sides. */
  lemma {:induction false} SubseqPrepend<T>(x: seq<T>, s: seq<T>, t: seq<T>)
    requires IsSubseq(s, t)
    ensures IsSubseq(x + s, x + t)
    decreases |x|
  {
    if |x| > 0 {
      SubseqPrepend(x[1..], s, t);
      assert (x + s)[0] == (x + t)[0];
      assert (x + s)[1..] == x[1..] + s;
      assert (x + t)[1..] == x[1..] + t;
      assert IsSubseq((x + s)[1..], (x + t)[1..]);
    } else {
      assert x + s == s && x + t == t;
    }
  }

  /** Anything can be added at the end of the longer side. */
  lemma {:induction false} SubseqAppendRight<T>(s: seq<T>, t: seq<T>, u: seq<T>)
    requires IsSubseq(s, t)
    ensures IsSubseq(s, t + u)
    decreases |t|
  {
    if |s| == 0 {
    } else if IsSubseq(s, t[1..]) {
      SubseqAppendRight(s, t[1..], u);
      assert (t + u)[1..] == t[1..] + u;
    } else {
      SubseqAppendRight(s[1..], t[1..], u);
      assert (t + u)[1..] == t[1..] + u;
    }
  }

  /** The same element can be added at the end of both sides. */
  lemma {:induction false} SubseqAppendBoth<T>(s: seq<T>, t: seq<T>, x: T)
    requires IsSubseq(s, t)
    ensures IsSubseq(s + [x], t + [x])
    decreases |t|
  {
    if |s| == 0 {
      assert s + [x] == [x];
      SubseqDropFront(t, [x]);
    } else if IsSubseq(s, t[1..]) {
      SubseqAppendBoth(s, t[1..], x);
      assert (t + [x])[1..] == t[1..] + [x];
    } else {
      SubseqAppendBoth(s[1..], t[1..], x);
      assert (s + [x])[1..] == s[1..] + [x];
      assert (t + [x])[1..] == t[1..] + [x];
    }
  }

  /** Deleting a whole prefix of the longer side. */
  lemma {:induction false} SubseqDropFront<T>(t: seq<T>, u: seq<T>)
    ensures IsSubseq(u, t + u)
    decreases |t|
  {
    if |t| == 0 {
      assert t + u == u;
      SubseqRefl(u);
    } else {
      SubseqDropFront(t[1..], u);
      assert (t + u)[1..] == t[1..] + u;
      SubseqCons(t[0], u, t[1..] + u);
      assert [t[0]] + (t[1..] + u) == t + u;
    }
  }

  /** The list a backwards scan leaves after looking at the last element of `prefix`:
      that element either stays (`kept` is it) or is deleted (`kept` is empty). */
  lemma ScanStep<T>(prefix: seq<T>, kept: seq<T>, suffix: seq<T>)
    requires |prefix| > 0
    requires kept == [] || kept == [prefix[|prefix| - 1]]
    ensures IsSubseq(prefix[..|prefix| - 1] + kept + suffix, prefix + suffix)
  {
    var i := |prefix| - 1;
    assert prefix + suffix == prefix[..i] + ([prefix[i]] + suffix);
    if kept == [] {
      SubseqRefl(suffix);
      SubseqCons(prefix[i], suffix, suffix);
      SubseqPrepend(prefix[..i], suffix, [prefix[i]] + suffix);
      assert prefix[..i] + kept + suffix == prefix[..i] + suffix;
    } else {
      assert prefix[..i] + kept + suffix == prefix + suffix;
      SubseqRefl(prefix + suffix);
    }
  }

  /** What a backwards scan has kept, regrouped: the element it just kept moves
      from the front of the rest to the end of what went before. */
  lemma Regroup<T>(a: seq<T>, b: seq<T>, s: seq<T>, t: seq<T>)
    ensures a + (b + s) + t == a + b + s + t
  {
  }

  lemma StripAppend<T>(a: seq<T>, b: seq<T>, x: T)
    ensures Strip(a + b, x) == Strip(a, x) + Strip(b, x)
  {
    if |a| > 0 {
      assert (a + b)[1..] == a[1..] + b;
      StripAppend(a[1..], b, x);
    } else {
      assert a + b == b;
    }
  }

  lemma {:induction false} SubseqLength<T>(s: seq<T>, t: seq<T>)
    requires IsSubseq(s, t)
    ensures |s| <= |t|
    decreases |t|
  {
    if |s| > 0 {
      if IsSubseq(s, t[1..]) {
        SubseqLength(s, t[1..]);
      } else {
        SubseqLength(s[1..], t[1..]);
      }
    }
  }

  /** Every element of a subsequence occurs in the longer sequence. */
  lemma {:induction false} SubseqMembers<T>(s: seq<T>, t: seq<T>)
    requires IsSubseq(s, t)
    ensures forall y | y in s :: y in t
    decreases |t|
  {
    if |s| > 0 {
      if IsSubseq(s, t[1..]) {
        SubseqMembers(s, t[1..]);
      } else {
        SubseqMembers(s[1..], t[1..]);
        assert s == [s[0]] + s[1..];
      }
    }
  }

  /** Two different members of a pairwise-related sequence are related one way round. */
  lemma PairwiseMembers<T>(s: seq<T>, x: T, y: T, R: (T, T) -> bool)
    requires Pairwise(s, R) && x in s && y in s && x != y
    ensures R(x, y) || R(y, x)
  {
    var i :| 0 <= i < |s| && s[i] == x;
    var j :| 0 <= j < |s| && s[j] == y;
    if i < j { assert R(s[i], s[j]); } else { assert R(s[j], s[i]); }
  }

  lemma PairwiseDeleteOne<T>(s: seq<T>, k: nat, R: (T, T) -> bool)
    requires k < |s|
    requires Pairwise(s, R)
    ensures Pairwise(s[..k] + s[k + 1..], R)
  {
    var t := s[..k] + s[k + 1..];
    forall i, j | 0 <= i < j < |t|
      ensures R(t[i], t[j])
    {
      var i' := if i < k then i else i + 1;
      var j' := if j < k then j else j + 1;
      assert t[i] == s[i'] && t[j] == s[j'];
    }
  }

  lemma PairwiseAppend<T>(s: seq<T>, x: T, R: (T, T) -> bool)
    requires Pairwise(s, R)
    requires forall y | y in s :: R(y, x)
    ensures Pairwise(s + [x], R)
  {
    var t := s + [x];
    forall i, j | 0 <= i < j < |t|
      ensures R(t[i], t[j])
    {
      if j == |s| {
        assert t[i] in s;
      }
    }
  }

  /** What a backwards scan step does to a pairwise property. */
  lemma PairwiseScanStep<T>(prefix: seq<T>, kept: seq<T>, suffix: seq<T>, R: (T, T) -> bool)
    requires |prefix| > 0
    requires kept == [] || kept == [prefix[|prefix| - 1]]
    requires Pairwise(prefix + suffix, R)
    ensures Pairwise(prefix[..|prefix| - 1] + kept + suffix, R)
  {
    var i := |prefix| - 1;
    if kept == [] {
      PairwiseDeleteOne(prefix + suffix, i, R);
      assert (prefix + suffix)[..i] + (prefix + suffix)[i + 1..] == prefix[..i] + kept + suffix;
    } else {
      assert prefix[..i] + kept + suffix == prefix + suffix;
    }
  }
}

=== FILE: skewboid_dominance.dfy ===
/** The three pairwise comparators of ParetoFunctions.cs: tolerance-aware plain
    Pareto (`Dominates`), weighted skew (`DominatesWithWeights`) and diversity skew
    (`DominatesDiversity`). Objective vectors are `seq<real>`. */
module SkewboidDominance {
  import opened Objectives
  import opened Lanes

  /** What `Dominates` and `DominatesWithWeights` hand back: the decision
      (1, -1 or 0) and the `out bool equal` flag. */
  datatype Comparison = Comparison(decision: int, equal: bool)

  /** c1 is strictly better than c2 on one objective under direction `d`. */
  predicate Better(d: Direction, a: real, b: real) {
    d.Value() * a > d.Value() * b
  }

  // ---------------------------------------------------------------- plain

  /** The lanes `Dominates` produces. The direction index `i` advances only on
      objectives that are not skipped (`optDirections[i++]`), so after a skipped
      objective the directions are read one position behind the objectives. */
  function PlainLanes(o1: seq<real>, o2: seq<real>, dirs: seq<Direction>, tol: real, i: nat): (r: seq<Lane>)
    requires |o1| == |o2| && i + |o1| <= |dirs|
    ensures |r| == |o1|
    ensures forall k | 0 <= k < |r| :: r[k] == Skipped <==> Indistinct(o1[k], o2[k], tol)
    decreases |o1|
  {
    if |o1| == 0 then []
    else
      var lane :=
        if Indistinct(o1[0], o2[0], tol) then Skipped
        else if Better(dirs[i], o1[0], o2[0]) then FirstWins
        else SecondWins;
      var rest := PlainLanes(o1[1..], o2[1..], dirs, tol, if lane == Skipped then i else i + 1);
      assert forall k | 1 <= k < |o1| :: o1[k] == o1[1..][k - 1] && o2[k] == o2[1..][k - 1];
      [lane] + rest
  }

  /** How many of the first `k` objective pairs are not skipped: the direction
      index `Dominates` uses for objective `k`. */
  function DriftIndex(o1: seq<real>, o2: seq<real>, tol: real, k: nat): (r: nat)
    requires k <= |o1| == |o2|
    ensures r <= k
  {
    if k == 0 then 0
    else DriftIndex(o1, o2, tol, k - 1) + (if Indistinct(o1[k - 1], o2[k - 1], tol) then 0 else 1)
  }

  /** `Dominates(c1, c2)`: the decision folds the lanes; `equal` starts true and is
      cleared by every objective pair that is not skipped. */
  function Dominates(o1: seq<real>, o2: seq<real>, dirs: seq<Direction>, tol: real): (r: Comparison)
    requires |o1| == |o2| <= |dirs|
    ensures r.equal <==> forall k | 0 <= k < |o1| :: Indistinct(o1[k], o2[k], tol)
    ensures r.equal ==> r.decision == 1
    ensures r.decision == 0 || r.decision == 1 || r.decision == -1
  {
    var lanes := PlainLanes(o1, o2, dirs, tol, 0);
    Comparison(Verdict(lanes), forall k | 0 <= k < |lanes| :: lanes[k] == Skipped)
  }

  lemma {:induction false} DriftShift(o1: seq<real>, o2: seq<real>, tol: real, k: nat)
    requires 1 <= k <= |o1| == |o2|
    ensures DriftIndex(o1, o2, tol, k)
         == (if Indistinct(o1[0], o2[0], tol) then 0 else 1) + DriftIndex(o1[1..], o2[1..], tol, k - 1)
  {
    if k > 1 {
      DriftShift(o1, o2, tol, k - 1);
      assert o1[1..][k - 2] == o1[k - 1] && o2[1..][k - 2] == o2[k - 1];
    }
  }

  /** Lane `k > 0` is lane `k - 1` of the rest, read from the next direction index
      if objective 0 is not skipped. */
  lemma PlainLanesTail(o1: seq<real>, o2: seq<real>, dirs: seq<Direction>, tol: real, i: nat, k: nat)
    requires |o1| == |o2| && i + |o1| <= |dirs| && 0 < k < |o1|
    ensures PlainLanes(o1, o2, dirs, tol, i)[k]
         == PlainLanes(o1[1..], o2[1..], dirs, tol, if Indistinct(o1[0], o2[0], tol) then i else i + 1)[k - 1]
  {
  }

  /** Lane `k` of `Dominates`, read with the drifted direction index. */
  lemma {:induction false} PlainLaneAt(o1: seq<real>, o2: seq<real>, dirs: seq<Direction>, tol: real, i: nat, k: nat)
    requires |o1| == |o2| && i + |o1| <= |dirs| && k < |o1|
    ensures PlainLanes(o1, o2, dirs, tol, i)[k]
         == if Indistinct(o1[k], o2[k], tol) then Skipped
            else if Better(dirs[i + DriftIndex(o1, o2, tol, k)], o1[k], o2[k]) then FirstWins
            else SecondWins
    decreases k
  {
    if k > 0 {
      var i' := if Indistinct(o1[0], o2[0], tol) then i else i + 1;
      PlainLanesTail(o1, o2, dirs, tol, i, k);
      PlainLaneAt(o1[1..], o2[1..], dirs, tol, i', k - 1);
      DriftShift(o1, o2, tol, k);
      assert o1[1..][k - 1] == o1[k] && o2[1..][k - 1] == o2[k];
    }
  }

  /** What `Dominates` decides: 1 iff c1 is strictly better on every objective that
      is not skipped (including when all are skipped), -1 iff some objective is not
      skipped and c1 is strictly better on none of them, 0 otherwise. Objective `k`
      is judged with the direction `dirs[DriftIndex(k)]`. */
  lemma DominatesMeaning(o1: seq<real>, o2: seq<real>, dirs: seq<Direction>, tol: real)
    requires |o1| == |o2| <= |dirs|
    ensures Dominates(o1, o2, dirs, tol).decision == 1 <==>
      forall k | 0 <= k < |o1| && !Indistinct(o1[k], o2[k], tol) ::
        Better(dirs[DriftIndex(o1, o2, tol, k)], o1[k], o2[k])
    ensures Dominates(o1, o2, dirs, tol).decision == -1 <==>
      (exists k | 0 <= k < |o1| :: !Indistinct(o1[k], o2[k], tol)) &&
      forall k | 0 <= k < |o1| && !Indistinct(o1[k], o2[k], tol) ::
        !Better(dirs[DriftIndex(o1, o2, tol, k)], o1[k], o2[k])
  {
    var lanes := PlainLanes(o1, o2, dirs, tol, 0);
    forall k | 0 <= k < |o1|
      ensures lanes[k] == if Indistinct(o1[k], o2[k], tol) then Skipped
                          else if Better(dirs[DriftIndex(o1, o2, tol, k)], o1[k], o2[k]) then FirstWins
                          else SecondWins
    {
      PlainLaneAt(o1, o2, dirs, tol, 0, k);
    }
  }

  /** A candidate compared with itself: with positive tolerance and no zero
      objective every pair is skipped, so it is `equal` and "dominates" itself. */
  lemma DominatesSelf(o: seq<real>, dirs: seq<Direction>, tol: real)
    requires |o| <= |dirs| && tol > 0.0
    requires forall k | 0 <= k < |o| :: o[k] != 0.0
    ensures Dominates(o, o, dirs, tol) == Comparison(1, true)
  {
    assert forall k | 0 <= k < |o| :: Indistinct(o[k], o[k], tol);
  }

  // ---------------------------------------------------------------- weighted

  /** The running sums `c1Value` and `c2Value` of one lens. */
  datatype Scores = Scores(c1Value: real, c2Value: real)

  /** Weight of objective `j` in lens `lens`: full for the lens, `alpha` for the others. */
  function Coef(alpha: real, lens: nat, j: nat): real {
    if j == lens then 1.0 else alpha
  }

  /** `DominatesWithWeights`' sums for lens `lens` over the first `n` objectives;
      tolerance-equal pairs contribute to neither side. */
  function WeightedScores(o1: seq<real>, o2: seq<real>, lens: nat, alpha: real, dirs: seq<Direction>,
                          weights: seq<real>, tol: real, n: nat): Scores
    requires n <= |o1| == |o2| <= |dirs| && |o1| <= |weights|
  {
    if n == 0 then Scores(0.0, 0.0)
    else
      var s := WeightedScores(o1, o2, lens, alpha, dirs, weights, tol, n - 1);
      var j := n - 1;
      if Indistinct(o1[j], o2[j], tol) then s
      else
        var f := dirs[j].Value() * Coef(alpha, lens, j) * weights[j];
        Scores(s.c1Value + f * o1[j], s.c2Value + f * o2[j])
  }

  /** c1's sum is strictly larger in lens `lens`. */
  predicate WeightedLensWon(o1: seq<real>, o2: seq<real>, lens: nat, alpha: real, dirs: seq<Direction>,
                            weights: seq<real>, tol: real)
    requires |o1| == |o2| <= |dirs| && |o1| <= |weights|
  {
    var s := WeightedScores(o1, o2, lens, alpha, dirs, weights, tol, |o1|);
    s.c1Value > s.c2Value
  }

  /** Lens `lens` is won by c1 only when its sum is strictly larger. */
  function WeightedLane(o1: seq<real>, o2: seq<real>, lens: nat, alpha: real, dirs: seq<Direction>,
                        weights: seq<real>, tol: real): Lane
    requires |o1| == |o2| <= |dirs| && |o1| <= |weights|
  {
    if WeightedLensWon(o1, o2, lens, alpha, dirs, weights, tol) then FirstWins else SecondWins
  }

  /** The lanes of the first `n` lenses. */
  function WeightedLanes(o1: seq<real>, o2: seq<real>, alpha: real, dirs: seq<Direction>,
                         weights: seq<real>, tol: real, n: nat): (r: seq<Lane>)
    requires n <= |o1| == |o2| <= |dirs| && |o1| <= |weights|
    ensures |r| == n
    ensures forall k | 0 <= k < n :: r[k] == WeightedLane(o1, o2, k, alpha, dirs, weights, tol)
  {
    if n == 0 then []
    else WeightedLanes(o1, o2, alpha, dirs, weights, tol, n - 1) + [WeightedLane(o1, o2, n - 1, alpha, dirs, weights, tol)]
  }

  /** The `equal` flag through the objective loop of one lens, over the first `n`
      objectives: a skipped pair leaves it as it was (`equal &= true`), any other
      pair clears it. */
  function LensEqual(o1: seq<real>, o2: seq<real>, tol: real, n: nat, equal: bool): (r: bool)
    requires n <= |o1| == |o2|
    ensures r <==> equal && forall j | 0 <= j < n :: Indistinct(o1[j], o2[j], tol)
  {
    if n == 0 then equal
    else
      var e := LensEqual(o1, o2, tol, n - 1, equal);
      if Indistinct(o1[n - 1], o2[n - 1], tol) then e && true else false
  }

  /** The `equal` flag after the first `lenses` lenses, starting from true: each
      lens runs its objective loop on the flag the previous lens left. */
  function WeightedEqual(o1: seq<real>, o2: seq<real>, tol: real, lenses: nat): (r: bool)
    requires |o1| == |o2|
    ensures r <==> lenses == 0 || forall j | 0 <= j < |o1| :: Indistinct(o1[j], o2[j], tol)
  {
    if lenses == 0 then true
    else LensEqual(o1, o2, tol, |o1|, WeightedEqual(o1, o2, tol, lenses - 1))
  }

  /** The verdict over the weighted lanes: 1 iff c1's sum is strictly larger in
      every lens, -1 iff there is a lens and c1's sum is larger in none. */
  lemma WeightedVerdict(o1: seq<real>, o2: seq<real>, alpha: real, dirs: seq<Direction>,
                        weights: seq<real>, tol: real)
    requires |o1| == |o2| <= |dirs| && |o1| <= |weights|
    ensures Verdict(WeightedLanes(o1, o2, alpha, dirs, weights, tol, |o1|)) == 1 <==>
      forall k | 0 <= k < |o1| :: WeightedLensWon(o1, o2, k, alpha, dirs, weights, tol)
    ensures Verdict(WeightedLanes(o1, o2, alpha, dirs, weights, tol, |o1|)) == -1 <==>
      |o1| > 0 && forall k | 0 <= k < |o1| :: !WeightedLensWon(o1, o2, k, alpha, dirs, weights, tol)
  {
    var n := |o1|;
    var lanes := WeightedLanes(o1, o2, alpha, dirs, weights, tol, n);
    forall k | 0 <= k < n
      ensures lanes[k] == if WeightedLensWon(o1, o2, k, alpha, dirs, weights, tol) then FirstWins else SecondWins
    {
      assert lanes[k] == WeightedLane(o1, o2, k, alpha, dirs, weights, tol);
    }
    if n > 0 && forall k | 0 <= k < n :: !WeightedLensWon(o1, o2, k, alpha, dirs, weights, tol) {
      assert lanes[0] == SecondWins;
    }
  }

  /** `DominatesWithWeights(c1, c2)`: 1 iff c1's sum is strictly larger in every
      lens, -1 iff there is a lens and c1's sum is larger in none (a tie goes to
      c2), 0 otherwise. The `equal` flag, started true and only ever cleared, ends
      true exactly when every objective pair is skipped. */
  function DominatesWithWeights(o1: seq<real>, o2: seq<real>, alpha: real, dirs: seq<Direction>,
                                weights: seq<real>, tol: real): (r: Comparison)
    requires |o1| == |o2| <= |dirs| && |o1| <= |weights|
    ensures r.decision == 1 <==> forall k | 0 <= k < |o1| :: WeightedLensWon(o1, o2, k, alpha, dirs, weights, tol)
    ensures r.decision == -1 <==>
      |o1| > 0 && forall k | 0 <= k < |o1| :: !WeightedLensWon(o1, o2, k, alpha, dirs, weights, tol)
    ensures r.decision == 0 || r.decision == 1 || r.decision == -1
    ensures r.equal <==> forall j | 0 <= j < |o1| :: Indistinct(o1[j], o2[j], tol)
  {
    WeightedVerdict(o1, o2, alpha, dirs, weights, tol);
    Comparison(Verdict(WeightedLanes(o1, o2, alpha, dirs, weights, tol, |o1|)), WeightedEqual(o1, o2, tol, |o1|))
  }

  /** With every pair tolerance-equal, every lens sum is zero on both sides. */
  lemma {:induction false} WeightedScoresAllSkipped(o1: seq<real>, o2: seq<real>, lens: nat, alpha: real,
                                                    dirs: seq<Direction>, weights: seq<real>, tol: real, n: nat)
    requires n <= |o1| == |o2| <= |dirs| && |o1| <= |weights|
    requires forall j | 0 <= j < |o1| :: Indistinct(o1[j], o2[j], tol)
    ensures WeightedScores(o1, o2, lens, alpha, dirs, weights, tol, n) == Scores(0.0, 0.0)
  {
    if n > 0 {
      WeightedScoresAllSkipped(o1, o2, lens, alpha, dirs, weights, tol, n - 1);
    }
  }

  /** The weighted `equal` flag is set only together with decision -1 (given at
      least one objective): every lens then scores 0 against 0 and the tie goes to c2. */
  lemma WeightedEqualIsDead(o1: seq<real>, o2: seq<real>, alpha: real, dirs: seq<Direction>,
                            weights: seq<real>, tol: real)
    requires 0 < |o1| == |o2| <= |dirs| && |o1| <= |weights|
    ensures DominatesWithWeights(o1, o2, alpha, dirs, weights, tol).equal ==>
            DominatesWithWeights(o1, o2, alpha, dirs, weights, tol).decision == -1
  {
    if forall j | 0 <= j < |o1| :: Indistinct(o1[j], o2[j], tol) {
      forall k | 0 <= k < |o1|
        ensures !WeightedLensWon(o1, o2, k, alpha, dirs, weights, tol)
      {
        WeightedScoresAllSkipped(o1, o2, k, alpha, dirs, weights, tol, |o1|);
      }
    }
  }

  // ---------------------------------------------------------------- diversity

  /** `DominatesDiversity`' sums for lens `lens` over the first `n` objectives:
      c1's value is scaled by the magnitude of c2's, c2 contributes only its sign. */
  function DiversityScores(o1: seq<real>, o2: seq<real>, lens: nat, alpha: real, dirs: seq<Direction>, n: nat): Scores
    requires n <= |o1| == |o2| <= |dirs|
    requires forall j | 0 <= j < |o2| :: o2[j] != 0.0
  {
    if n == 0 then Scores(0.0, 0.0)
    else
      var s := DiversityScores(o1, o2, lens, alpha, dirs, n - 1);
      var j := n - 1;
      var f := dirs[j].Value() * Coef(alpha, lens, j);
      Scores(s.c1Value + f * (o1[j] / Abs(o2[j])), s.c2Value + f * Sign(o2[j]))
  }

  /** c1 does not lose lens `k` of the diversity comparison. */
  predicate LensHolds(o1: seq<real>, o2: seq<real>, alpha: real, dirs: seq<Direction>, k: nat)
    requires k < |o1| == |o2| <= |dirs|
    requires forall j | 0 <= j < |o2| :: o2[j] != 0.0
  {
    var s := DiversityScores(o1, o2, k, alpha, dirs, |o1|);
    s.c1Value >= s.c2Value
  }

  /** c1 wins lens `k` of the diversity comparison outright. */
  predicate LensWon(o1: seq<real>, o2: seq<real>, alpha: real, dirs: seq<Direction>, k: nat)
    requires k < |o1| == |o2| <= |dirs|
    requires forall j | 0 <= j < |o2| :: o2[j] != 0.0
  {
    var s := DiversityScores(o1, o2, k, alpha, dirs, |o1|);
    s.c1Value > s.c2Value
  }

  /** The lens loop of `DominatesDiversity` from lens `i` on, with the `dominates`
      flag so far: it answers false at the first lens c1 loses. */
  function DiversityFrom(o1: seq<real>, o2: seq<real>, alpha: real, dirs: seq<Direction>, i: nat, dominates: bool): (r: bool)
    requires i <= |o1| == |o2| <= |dirs|
    requires forall j | 0 <= j < |o2| :: o2[j] != 0.0
    ensures r <==>
      (forall k | i <= k < |o1| :: LensHolds(o1, o2, alpha, dirs, k)) &&
      (dominates || exists k | i <= k < |o1| :: LensWon(o1, o2, alpha, dirs, k))
    decreases |o1| - i
  {
    if i == |o1| then dominates
    else
      var s := DiversityScores(o1, o2, i, alpha, dirs, |o1|);
      if s.c1Value < s.c2Value then
        assert !LensHolds(o1, o2, alpha, dirs, i);
        false
      else
        assert LensHolds(o1, o2, alpha, dirs, i);
        assert LensWon(o1, o2, alpha, dirs, i) == (s.c1Value > s.c2Value);
        DiversityFrom(o1, o2, alpha, dirs, i + 1, dominates || s.c1Value > s.c2Value)
  }

  /** `DominatesDiversity(c1, c2)`: c1 loses no lens and wins at least one (the
      contract of `DiversityFrom` at lens 0). No candidate dominates itself,
      whatever alpha: against itself every lens is a tie. */
  function DominatesDiversity(o1: seq<real>, o2: seq<real>, alpha: real, dirs: seq<Direction>): (r: bool)
    requires |o1| == |o2| <= |dirs|
    requires forall j | 0 <= j < |o2| :: o2[j] != 0.0
    ensures o1 == o2 ==> !r
  {
    assert o1 == o2 ==> !DiversityFrom(o1, o2, alpha, dirs, 0, false) by {
      if o1 == o2 {
        forall k | 0 <= k < |o1|
          ensures !LensWon(o1, o2, alpha, dirs, k)
        {
          DiversityScoresSelf(o1, k, alpha, dirs, |o1|);
        }
      }
    }
    DiversityFrom(o1, o2, alpha, dirs, 0, false)
  }

  /** Comparing a candidate with itself, the two sums of every lens agree. */
  lemma {:induction false} DiversityScoresSelf(o: seq<real>, lens: nat, alpha: real, dirs: seq<Direction>, n: nat)
    requires n <= |o| <= |dirs|
    requires forall j | 0 <= j < |o| :: o[j] != 0.0
    ensures DiversityScores(o, o, lens, alpha, dirs, n).c1Value == DiversityScores(o, o, lens, alpha, dirs, n).c2Value
  {
    if n > 0 {
      DiversityScoresSelf(o, lens, alpha, dirs, n - 1);
      UnitRatio(o[n - 1]);
    }
  }

  /** A nonzero value divided by its magnitude is its sign. */
  lemma UnitRatio(x: real)
    requires x != 0.0
    ensures x / Abs(x) == Sign(x)
  {
    var q := x / Abs(x);
    assert q * Abs(x) == x;
    if x > 0.0 {
      assert (q - 1.0) * x == 0.0;
    } else {
      assert (q + 1.0) * x == 0.0;
    }
  }

  /** At alpha 0 only the lens objective counts in its own lens. */
  lemma {:induction false} DiversityScoresAtZero(o1: seq<real>, o2: seq<real>, lens: nat, dirs: seq<Direction>, n: nat)
    requires n <= |o1| == |o2| <= |dirs|
    requires forall j | 0 <= j < |o2| :: o2[j] != 0.0
    ensures DiversityScores(o1, o2, lens, 0.0, dirs, n)
         == if lens < n then Scores(dirs[lens].Value() * (o1[lens] / Abs(o2[lens])), dirs[lens].Value() * Sign(o2[lens]))
            else Scores(0.0, 0.0)
  {
    if n > 0 {
      DiversityScoresAtZero(o1, o2, lens, dirs, n - 1);
    }
  }

  /** Dividing by a positive magnitude keeps the comparison against the sign term. */
  lemma ScaledComparison(d: real, a: real, b: real)
    requires b != 0.0 && (d == 1.0 || d == -1.0)
    ensures d * (a / Abs(b)) >= d * Sign(b) <==> d * a >= d * b
    ensures d * (a / Abs(b)) > d * Sign(b) <==> d * a > d * b
  {
    var p := Abs(b);
    var q := a / p;
    assert p > 0.0;
    assert q * p == a;
    assert Sign(b) * p == b;
    // both sides of each comparison are the ones above multiplied by p > 0
    var x := d * q - d * Sign(b);
    assert d * a - d * b == x * p;
    PositiveScale(x, p);
  }

  lemma PositiveScale(x: real, p: real)
    requires p > 0.0
    ensures x >= 0.0 <==> x * p >= 0.0
    ensures x > 0.0 <==> x * p > 0.0
  {
  }

  /** At alpha 0 the diversity comparator is classic Pareto dominance: c1 is at
      least as good on every objective and strictly better on one. */
  lemma DiversityAtZeroIsPareto(o1: seq<real>, o2: seq<real>, dirs: seq<Direction>)
    requires |o1| == |o2| <= |dirs|
    requires forall j | 0 <= j < |o2| :: o2[j] != 0.0
    ensures DominatesDiversity(o1, o2, 0.0, dirs) <==>
      (forall k | 0 <= k < |o1| :: dirs[k].Value() * o1[k] >= dirs[k].Value() * o2[k]) &&
      (exists k | 0 <= k < |o1| :: Better(dirs[k], o1[k], o2[k]))
  {
    forall k | 0 <= k < |o1|
      ensures LensHolds(o1, o2, 0.0, dirs, k) <==> dirs[k].Value() * o1[k] >= dirs[k].Value() * o2[k]
      ensures LensWon(o1, o2, 0.0, dirs, k) <==> Better(dirs[k], o1[k], o2[k])
    {
      DiversityScoresAtZero(o1, o2, k, dirs, |o1|);
      ScaledComparison(dirs[k].Value(), o1[k], o2[k]);
    }
  }
}

=== FILE: skewboid_frontier.dfy ===
/** The incremental frontier builders of ParetoFunctions.cs: `UpdatePareto`,
    `UpdateParetoWithWeights`, `UpdateParetoDiversity` and the `FindParetoCandidates`
    folds over them.

    Each update walks the working list from the back. The list at any moment is
    `prefix + suffix`: `prefix` is the part not yet looked at (exactly as it was on
    entry), `suffix` the members already looked at and kept. Removing the member at
    the scanned index is dropping the last element of `prefix`. The scans take
    their comparator as a function value, so what they do to the list is proved
    once for every comparator. */
module SkewboidFrontier {
  import opened Objectives
  import opened Sequences
  import opened SkewboidDominance

  /** What an update leaves behind: the new list, the returned bool, and `out equalsExisting`. */
  datatype Update = Update(members: seq<Candidate>, added: bool, equalsExisting: bool)

  /** A comparison of c1 against c2, as `Dominates` and `DominatesWithWeights` return it. */
  type Comparator = (Candidate, Candidate) -> Comparison

  /** `Dominates` on candidates. Pairs of unequal width, or wider than the
      direction list, never reach it: the updates require a common width. */
  function PlainComparator(dirs: seq<Direction>, tol: real): Comparator {
    (c1: Candidate, c2: Candidate) =>
      if |c1.objectives| == |c2.objectives| <= |dirs|
      then Dominates(c1.objectives, c2.objectives, dirs, tol)
      else Comparison(0, false)
  }

  /** `DominatesWithWeights` on candidates, with the same proviso. */
  function WeightedComparator(alpha: real, dirs: seq<Direction>, weights: seq<real>, tol: real): Comparator {
    (c1: Candidate, c2: Candidate) =>
      if |c1.objectives| == |c2.objectives| <= |dirs| && |c1.objectives| <= |weights|
      then DominatesWithWeights(c1.objectives, c2.objectives, alpha, dirs, weights, tol)
      else Comparison(0, false)
  }

  /** `DominatesDiversity` on candidates (c2's objectives are divisors). */
  function DiversityDominance(alpha: real, dirs: seq<Direction>): (Candidate, Candidate) -> bool {
    (c1: Candidate, c2: Candidate) =>
      |c1.objectives| == |c2.objectives| <= |dirs| && NoZero(c2.objectives) &&
      DominatesDiversity(c1.objectives, c2.objectives, alpha, dirs)
  }

  /** `CheckIfEqual` on candidates. */
  function ToleranceEqual(tol: real): (Candidate, Candidate) -> bool {
    (c1: Candidate, c2: Candidate) =>
      |c1.objectives| == |c2.objectives| && CheckIfEqual(c1.objectives, c2.objectives, tol)
  }

  /** The loop shared by `UpdatePareto` and `UpdateParetoWithWeights`, at index
      `|prefix| - 1`. A member c dominates is removed; a member that dominates c
      ends the scan with c rejected; then, if the pair was `equal`, the scan ends,
      c is placed at the scanned index when `keepEquals`, and `keepEquals` is returned. */
  function ScanCompare(cmp: Comparator, keepEquals: bool,
                       prefix: seq<Candidate>, suffix: seq<Candidate>, c: Candidate): (r: Update)
    ensures |r.members| <= |prefix| + |suffix| + 1
    ensures forall x | x in r.members :: x in prefix || x in suffix || x == c
    ensures c !in prefix + suffix ==> (r.added <==> c in r.members)
    ensures r.equalsExisting ==> r.added == keepEquals
    decreases |prefix|
  {
    if |prefix| == 0 then Update(suffix + [c], true, false)
    else
      var i := |prefix| - 1;
      var pc := prefix[i];
      assert prefix == prefix[..i] + [pc];
      var verdict := cmp(c, pc);
      if verdict.decision == -1 then Update(prefix + suffix, false, false)
      else
        var kept := if verdict.decision == 1 then [] else [pc];
        if verdict.equal then
          Update(prefix[..i] + (if keepEquals then [c] else []) + kept + suffix, keepEquals, true)
        else
          ScanCompare(cmp, keepEquals, prefix[..i], kept + suffix, c)
  }

  /** The loop of `UpdateParetoDiversity` at index `|prefix| - 1`. Equality is
      checked first: a tolerance-equal member stays, c goes just before it when
      `keepEquals`, and the scan ends. Otherwise a member c dominates is removed and
      a member that dominates c ends the scan with c rejected. */
  function ScanDiversity(dominates: (Candidate, Candidate) -> bool, equal: (Candidate, Candidate) -> bool,
                         keepEquals: bool, prefix: seq<Candidate>, suffix: seq<Candidate>, c: Candidate): (r: Update)
    ensures |r.members| <= |prefix| + |suffix| + 1
    ensures forall x | x in r.members :: x in prefix || x in suffix || x == c
    ensures c !in prefix + suffix ==> (r.added <==> c in r.members)
    ensures r.equalsExisting ==> r.added == keepEquals
    decreases |prefix|
  {
    if |prefix| == 0 then Update(suffix + [c], true, false)
    else
      var i := |prefix| - 1;
      var pc := prefix[i];
      assert prefix == prefix[..i] + [pc];
      if equal(pc, c) then
        Update(prefix[..i] + (if keepEquals then [c] else []) + [pc] + suffix, keepEquals, true)
      else if dominates(c, pc) then
        ScanDiversity(dominates, equal, keepEquals, prefix[..i], suffix, c)
      else if dominates(pc, c) then
        Update(prefix + suffix, false, false)
      else
        assert prefix[..i] + ([pc] + suffix) == prefix + suffix;
        ScanDiversity(dominates, equal, keepEquals, prefix[..i], [pc] + suffix, c)
  }

  // ---------------------------------------------------------------- removal and rejection

  /** The members of `s`, in order, that c does not dominate under `cmp` (decision
      other than 1): what a compare-scan keeps of the members it passes. */
  function Undominated(cmp: Comparator, c: Candidate, s: seq<Candidate>): (r: seq<Candidate>)
    ensures |r| <= |s|
    decreases |s|
  {
    if |s| == 0 then []
    else
      var x := s[|s| - 1];
      Undominated(cmp, c, s[..|s| - 1]) + (if cmp(c, x).decision == 1 then [] else [x])
  }

  lemma UndominatedSnoc(cmp: Comparator, c: Candidate, s: seq<Candidate>, x: Candidate)
    ensures Undominated(cmp, c, s + [x]) == Undominated(cmp, c, s) + (if cmp(c, x).decision == 1 then [] else [x])
  {
    assert (s + [x])[..|s|] == s;
  }

  /** Comparing c with a member ends a compare-scan: the member dominates c, or the pair is `equal`. */
  predicate Stops(v: Comparison) {
    v.decision == -1 || v.equal
  }

  /** `prefix[j]` is where a compare-scan of `prefix` from the back stops: the last
      member whose comparison with c stops it. */
  predicate LastStop(cmp: Comparator, c: Candidate, prefix: seq<Candidate>, j: int) {
    0 <= j < |prefix| && Stops(cmp(c, prefix[j])) && forall k | j < k < |prefix| :: !Stops(cmp(c, prefix[k]))
  }

  /** What a compare-scan stopping at `prefix[j]` leaves: c rejected there if that
      member dominates it, and otherwise (an `equal` member) `equalsExisting`, with c
      put at index j when `keepEquals`; the members c dominates from j on are gone
      and those in front of j are untouched. */
  predicate StoppedAt(cmp: Comparator, keepEquals: bool, prefix: seq<Candidate>, suffix: seq<Candidate>,
                      c: Candidate, u: Update, j: int)
    requires 0 <= j < |prefix|
  {
    && u.equalsExisting == (cmp(c, prefix[j]).decision != -1)
    && u.added == (u.equalsExisting && keepEquals)
    && u.members == prefix[..j] + (if u.added then [c] else []) + Undominated(cmp, c, prefix[j..]) + suffix
  }

  /** What a compare-scan removes and when it rejects c: the members already
      looked at stay, and a member is gone only if c dominates it (decision 1); c is
      rejected only by a member that dominates it (decision -1) or at an `equal`
      member. `ScanCompareAppends` and `ScanCompareStop` say exactly what is left. */
  lemma {:induction false} ScanCompareRule(cmp: Comparator, keepEquals: bool,
                                           prefix: seq<Candidate>, suffix: seq<Candidate>, c: Candidate)
    ensures var u := ScanCompare(cmp, keepEquals, prefix, suffix, c);
            forall x | x in suffix :: x in u.members
    ensures var u := ScanCompare(cmp, keepEquals, prefix, suffix, c);
            forall x | x in prefix && x !in u.members :: cmp(c, x).decision == 1
    ensures var u := ScanCompare(cmp, keepEquals, prefix, suffix, c);
            !u.added && !u.equalsExisting ==> exists x | x in prefix :: cmp(c, x).decision == -1
    ensures var u := ScanCompare(cmp, keepEquals, prefix, suffix, c);
            u.equalsExisting ==> exists x | x in prefix :: cmp(c, x).equal && cmp(c, x).decision != -1
    ensures var u := ScanCompare(cmp, keepEquals, prefix, suffix, c);
            u.added && !u.equalsExisting ==> forall x | x in prefix :: cmp(c, x).decision != -1 && !cmp(c, x).equal
    ensures var u := ScanCompare(cmp, keepEquals, prefix, suffix, c);
            u.added && !u.equalsExisting ==>
              forall x | x in prefix && x !in suffix && x != c :: (x in u.members <==> cmp(c, x).decision != 1)
    decreases |prefix|
  {
    if |prefix| > 0 {
      var i := |prefix| - 1;
      var pc := prefix[i];
      assert prefix == prefix[..i] + [pc];
      var verdict := cmp(c, pc);
      if verdict.decision != -1 && !verdict.equal {
        var kept := if verdict.decision == 1 then [] else [pc];
        ScanCompareRule(cmp, keepEquals, prefix[..i], kept + suffix, c);
      }
    }
  }

  /** A stop in front of a member the compare-scan passes is a stop of the longer scan. */
  lemma StoppedBefore(cmp: Comparator, keepEquals: bool, prefix: seq<Candidate>, suffix: seq<Candidate>,
                      c: Candidate, u: Update, j: int)
    requires 0 <= j < |prefix| - 1 && !Stops(cmp(c, prefix[|prefix| - 1]))
    requires var pc := prefix[|prefix| - 1];
             StoppedAt(cmp, keepEquals, prefix[..|prefix| - 1], (if cmp(c, pc).decision == 1 then [] else [pc]) + suffix, c, u, j)
    ensures StoppedAt(cmp, keepEquals, prefix, suffix, c, u, j)
  {
    var i := |prefix| - 1;
    var pc := prefix[i];
    var kept := if cmp(c, pc).decision == 1 then [] else [pc];
    var ins := if u.added then [c] else [];
    assert prefix[..i][..j] == prefix[..j];
    assert prefix[j..] == prefix[..i][j..] + [pc];
    UndominatedSnoc(cmp, c, prefix[..i][j..], pc);
    assert u.members == prefix[..j] + ins + Undominated(cmp, c, prefix[..i][j..]) + (kept + suffix);
  }

  /** The compare-scan stopping at the member it looks at first. */
  lemma StoppedHere(cmp: Comparator, keepEquals: bool, prefix: seq<Candidate>, suffix: seq<Candidate>, c: Candidate)
    requires |prefix| > 0 && Stops(cmp(c, prefix[|prefix| - 1]))
    ensures StoppedAt(cmp, keepEquals, prefix, suffix, c, ScanCompare(cmp, keepEquals, prefix, suffix, c), |prefix| - 1)
  {
    var i := |prefix| - 1;
    var pc := prefix[i];
    assert prefix == prefix[..i] + [pc];
    assert prefix[i..] == [] + [pc];
    UndominatedSnoc(cmp, c, [], pc);
  }

  /** A compare-scan that meets no member that stops it appends c after the
      members c does not dominate. */
  lemma {:induction false} ScanCompareAppends(cmp: Comparator, keepEquals: bool,
                                              prefix: seq<Candidate>, suffix: seq<Candidate>, c: Candidate)
    requires forall x | x in prefix :: !Stops(cmp(c, x))
    ensures var u := ScanCompare(cmp, keepEquals, prefix, suffix, c);
            u.added && !u.equalsExisting && u.members == Undominated(cmp, c, prefix) + suffix + [c]
    decreases |prefix|
  {
    if |prefix| > 0 {
      var i := |prefix| - 1;
      var pc := prefix[i];
      assert prefix == prefix[..i] + [pc];
      var kept := if cmp(c, pc).decision == 1 then [] else [pc];
      assert !Stops(cmp(c, pc));
      assert forall x | x in prefix[..i] :: x in prefix;
      var u := ScanCompare(cmp, keepEquals, prefix, suffix, c);
      assert u == ScanCompare(cmp, keepEquals, prefix[..i], kept + suffix, c);
      ScanCompareAppends(cmp, keepEquals, prefix[..i], kept + suffix, c);
      UndominatedSnoc(cmp, c, prefix[..i], pc);
      Regroup(Undominated(cmp, c, prefix[..i]), kept, suffix, [c]);
    }
  }

  /** A compare-scan that does stop is decided by the last member that stops it,
      as `StoppedAt` says. */
  lemma {:induction false} ScanCompareStop(cmp: Comparator, keepEquals: bool,
                                           prefix: seq<Candidate>, suffix: seq<Candidate>, c: Candidate)
    ensures var u := ScanCompare(cmp, keepEquals, prefix, suffix, c);
            forall j | LastStop(cmp, c, prefix, j) :: StoppedAt(cmp, keepEquals, prefix, suffix, c, u, j)
    decreases |prefix|
  {
    var u := ScanCompare(cmp, keepEquals, prefix, suffix, c);
    if |prefix| > 0 {
      var i := |prefix| - 1;
      var pc := prefix[i];
      var verdict := cmp(c, pc);
      if Stops(verdict) {
        StoppedHere(cmp, keepEquals, prefix, suffix, c);
      } else {
        var kept := if verdict.decision == 1 then [] else [pc];
        assert prefix == prefix[..i] + [pc];
        assert u == ScanCompare(cmp, keepEquals, prefix[..i], kept + suffix, c);
        ScanCompareStop(cmp, keepEquals, prefix[..i], kept + suffix, c);
        forall j | LastStop(cmp, c, prefix, j)
          ensures StoppedAt(cmp, keepEquals, prefix, suffix, c, u, j)
        {
          assert LastStop(cmp, c, prefix[..i], j);
          StoppedBefore(cmp, keepEquals, prefix, suffix, c, u, j);
        }
      }
    }
  }

  /** The members of `s`, in order, that c does not dominate: what the diversity
      scan keeps of the members it passes. */
  function NotDominated(dominates: (Candidate, Candidate) -> bool, c: Candidate, s: seq<Candidate>): (r: seq<Candidate>)
    ensures |r| <= |s|
    decreases |s|
  {
    if |s| == 0 then []
    else
      var x := s[|s| - 1];
      NotDominated(dominates, c, s[..|s| - 1]) + (if dominates(c, x) then [] else [x])
  }

  lemma NotDominatedSnoc(dominates: (Candidate, Candidate) -> bool, c: Candidate, s: seq<Candidate>, x: Candidate)
    ensures NotDominated(dominates, c, s + [x]) == NotDominated(dominates, c, s) + (if dominates(c, x) then [] else [x])
  {
    assert (s + [x])[..|s|] == s;
  }

  /** A member ends the diversity scan: it is equal to c, or it dominates c and c does not dominate it. */
  predicate DiversityStops(dominates: (Candidate, Candidate) -> bool, equal: (Candidate, Candidate) -> bool,
                           c: Candidate, x: Candidate) {
    equal(x, c) || (!dominates(c, x) && dominates(x, c))
  }

  /** `prefix[j]` is where the diversity scan of `prefix` from the back stops. */
  predicate DiversityLastStop(dominates: (Candidate, Candidate) -> bool, equal: (Candidate, Candidate) -> bool,
                              c: Candidate, prefix: seq<Candidate>, j: int) {
    && 0 <= j < |prefix|
    && DiversityStops(dominates, equal, c, prefix[j])
    && forall k | j < k < |prefix| :: !DiversityStops(dominates, equal, c, prefix[k])
  }

  /** What the diversity scan stopping at `prefix[j]` leaves: that member stays; c
      is rejected there unless it is equal to c, and then `equalsExisting`, with c
      put just before it when `keepEquals`; the members behind j that c dominates are
      gone and those in front of j are untouched. */
  predicate DiversityStoppedAt(dominates: (Candidate, Candidate) -> bool, equal: (Candidate, Candidate) -> bool,
                               keepEquals: bool, prefix: seq<Candidate>, suffix: seq<Candidate>,
                               c: Candidate, u: Update, j: int)
    requires 0 <= j < |prefix|
  {
    && u.equalsExisting == equal(prefix[j], c)
    && u.added == (u.equalsExisting && keepEquals)
    && u.members == prefix[..j] + (if u.added then [c] else []) + [prefix[j]]
                    + NotDominated(dominates, c, prefix[j + 1..]) + suffix
  }

  /** The same for the diversity scan, where equality is tested first: a member is
      gone only if c dominates it; c is rejected only by a member that is not equal
      to it, that it does not dominate, and that dominates it, or at an equal
      member, which stays. `ScanDiversityAppends` and `ScanDiversityStop` say exactly
      what is left. */
  lemma {:induction false} ScanDiversityRule(dominates: (Candidate, Candidate) -> bool, equal: (Candidate, Candidate) -> bool,
                                             keepEquals: bool, prefix: seq<Candidate>, suffix: seq<Candidate>, c: Candidate)
    ensures var u := ScanDiversity(dominates, equal, keepEquals, prefix, suffix, c);
            forall x | x in suffix :: x in u.members
    ensures var u := ScanDiversity(dominates, equal, keepEquals, prefix, suffix, c);
            forall x | x in prefix && x !in u.members :: dominates(c, x)
    ensures var u := ScanDiversity(dominates, equal, keepEquals, prefix, suffix, c);
            !u.added && !u.equalsExisting ==>
              exists x | x in prefix :: !equal(x, c) && !dominates(c, x) && dominates(x, c)
    ensures var u := ScanDiversity(dominates, equal, keepEquals, prefix, suffix, c);
            u.equalsExisting ==> exists x | x in prefix :: equal(x, c) && x in u.members
    ensures var u := ScanDiversity(dominates, equal, keepEquals, prefix, suffix, c);
            u.added && !u.equalsExisting ==>
              forall x | x in prefix :: !equal(x, c) && (dominates(c, x) || !dominates(x, c))
    ensures var u := ScanDiversity(dominates, equal, keepEquals, prefix, suffix, c);
            u.added && !u.equalsExisting ==>
              forall x | x in prefix && x !in suffix && x != c :: (x in u.members <==> !dominates(c, x))
    decreases |prefix|
  {
    if |prefix| > 0 {
      var i := |prefix| - 1;
      var pc := prefix[i];
      assert prefix == prefix[..i] + [pc];
      if !equal(pc, c) {
        if dominates(c, pc) {
          ScanDiversityRule(dominates, equal, keepEquals, prefix[..i], suffix, c);
        } else if !dominates(pc, c) {
          assert prefix[..i] + ([pc] + suffix) == prefix + suffix;
          ScanDiversityRule(dominates, equal, keepEquals, prefix[..i], [pc] + suffix, c);
        }
      }
    }
  }

  /** A stop in front of a member the diversity scan passes is a stop of the longer scan. */
  lemma DiversityStoppedBefore(dominates: (Candidate, Candidate) -> bool, equal: (Candidate, Candidate) -> bool,
                               keepEquals: bool, prefix: seq<Candidate>, suffix: seq<Candidate>,
                               c: Candidate, u: Update, j: int)
    requires 0 <= j < |prefix| - 1
    requires var pc := prefix[|prefix| - 1];
             DiversityStoppedAt(dominates, equal, keepEquals, prefix[..|prefix| - 1],
                                (if dominates(c, pc) then [] else [pc]) + suffix, c, u, j)
    ensures DiversityStoppedAt(dominates, equal, keepEquals, prefix, suffix, c, u, j)
  {
    var i := |prefix| - 1;
    var pc := prefix[i];
    var kept := if dominates(c, pc) then [] else [pc];
    var front := prefix[..j] + (if u.added then [c] else []) + [prefix[j]];
    var passed := NotDominated(dominates, c, prefix[..i][j + 1..]);
    assert prefix[..i][..j] == prefix[..j];
    assert u.members == front + passed + (kept + suffix);
    assert prefix[j + 1..] == prefix[..i][j + 1..] + [pc];
    NotDominatedSnoc(dominates, c, prefix[..i][j + 1..], pc);
    Regroup(front, passed, kept, suffix);
  }

  /** The diversity scan stopping at the member it looks at first. */
  lemma DiversityStoppedHere(dominates: (Candidate, Candidate) -> bool, equal: (Candidate, Candidate) -> bool,
                             keepEquals: bool, prefix: seq<Candidate>, suffix: seq<Candidate>, c: Candidate)
    requires |prefix| > 0 && DiversityStops(dominates, equal, c, prefix[|prefix| - 1])
    ensures DiversityStoppedAt(dominates, equal, keepEquals, prefix, suffix, c,
                               ScanDiversity(dominates, equal, keepEquals, prefix, suffix, c), |prefix| - 1)
  {
    var i := |prefix| - 1;
    assert prefix == prefix[..i] + [prefix[i]];
    assert prefix[i + 1..] == [];
  }

  /** A diversity scan that meets no member that stops it appends c after the
      members c does not dominate. */
  lemma {:induction false} ScanDiversityAppends(dominates: (Candidate, Candidate) -> bool, equal: (Candidate, Candidate) -> bool,
                                                keepEquals: bool, prefix: seq<Candidate>, suffix: seq<Candidate>, c: Candidate)
    requires forall x | x in prefix :: !DiversityStops(dominates, equal, c, x)
    ensures var u := ScanDiversity(dominates, equal, keepEquals, prefix, suffix, c);
            u.added && !u.equalsExisting && u.members == NotDominated(dominates, c, prefix) + suffix + [c]
    decreases |prefix|
  {
    if |prefix| > 0 {
      var i := |prefix| - 1;
      var pc := prefix[i];
      assert prefix == prefix[..i] + [pc];
      var kept := if dominates(c, pc) then [] else [pc];
      assert !DiversityStops(dominates, equal, c, pc);
      assert forall x | x in prefix[..i] :: x in prefix;
      ScanDiversityAppends(dominates, equal, keepEquals, prefix[..i], kept + suffix, c);
      NotDominatedSnoc(dominates, c, prefix[..i], pc);
      Regroup(NotDominated(dominates, c, prefix[..i]), kept, suffix, [c]);
      if dominates(c, pc) {
        assert kept + suffix == suffix;
      } else {
        assert prefix[..i] + ([pc] + suffix) == prefix + suffix;
      }
    }
  }

  /** A diversity scan that does stop is decided by the last member that stops
      it, as `DiversityStoppedAt` says. */
  lemma {:induction false} ScanDiversityStop(dominates: (Candidate, Candidate) -> bool, equal: (Candidate, Candidate) -> bool,
                                             keepEquals: bool, prefix: seq<Candidate>, suffix: seq<Candidate>, c: Candidate)
    ensures var u := ScanDiversity(dominates, equal, keepEquals, prefix, suffix, c);
            forall j | DiversityLastStop(dominates, equal, c, prefix, j) ::
              DiversityStoppedAt(dominates, equal, keepEquals, prefix, suffix, c, u, j)
    decreases |prefix|
  {
    var u := ScanDiversity(dominates, equal, keepEquals, prefix, suffix, c);
    if |prefix| > 0 {
      var i := |prefix| - 1;
      var pc := prefix[i];
      if DiversityStops(dominates, equal, c, pc) {
        DiversityStoppedHere(dominates, equal, keepEquals, prefix, suffix, c);
      } else {
        var kept := if dominates(c, pc) then [] else [pc];
        assert prefix == prefix[..i] + [pc];
        assert prefix[..i] + ([pc] + suffix) == prefix + suffix;
        assert kept + suffix == if dominates(c, pc) then suffix else [pc] + suffix;
        assert u == ScanDiversity(dominates, equal, keepEquals, prefix[..i], kept + suffix, c);
        ScanDiversityStop(dominates, equal, keepEquals, prefix[..i], kept + suffix, c);
        forall j | DiversityLastStop(dominates, equal, c, prefix, j)
          ensures DiversityStoppedAt(dominates, equal, keepEquals, prefix, suffix, c, u, j)
        {
          assert DiversityLastStop(dominates, equal, c, prefix[..i], j);
          DiversityStoppedBefore(dominates, equal, keepEquals, prefix, suffix, c, u, j);
        }
      }
    }
  }

  // ---------------------------------------------------------------- order of survivors

  /** The scan ran off the front: c is appended to what is left. */
  lemma AppendedAtEnd<T>(rest: seq<T>, c: T)
    requires c !in rest
    ensures IsSubseq(Strip(rest + [c], c), rest)
    ensures IsSubseq(rest + [c], rest + [c])
  {
    StripAppend(rest, [c], c);
    assert Strip([c], c) == [];
    assert Strip(rest + [c], c) == rest;
    SubseqRefl(rest);
    SubseqRefl(rest + [c]);
  }

  /** The scan rejected c: the list is unchanged. */
  lemma Rejected<T>(whole: seq<T>, c: T)
    requires c !in whole
    ensures IsSubseq(Strip(whole, c), whole)
    ensures IsSubseq(whole, whole + [c])
  {
    SubseqRefl(whole);
    SubseqAppendRight(whole, whole, [c]);
  }

  /** The scan stopped at an equal member: c (if inserted at all) sits between
      `front` and `back`, which together are a subsequence of the list. */
  lemma InsertedBetween<T>(front: seq<T>, ins: seq<T>, back: seq<T>, c: T, whole: seq<T>)
    requires ins == [] || ins == [c]
    requires c !in front + back
    requires IsSubseq(front + back, whole)
    ensures IsSubseq(Strip(front + ins + back, c), whole)
    ensures ins == [] ==> IsSubseq(front + ins + back, whole + [c])
  {
    StripAppend(front + ins, back, c);
    StripAppend(front, ins, c);
    assert Strip(ins, c) == [];
    assert Strip(front + ins + back, c) == front + back;
    if ins == [] {
      assert front + ins + back == front + back;
      SubseqAppendRight(front + back, whole, [c]);
    }
  }

  /** The scan went on with a list `rest` that is a subsequence of `whole`. */
  lemma Continued<T>(m: seq<T>, rest: seq<T>, whole: seq<T>, c: T, appendOnly: bool)
    requires IsSubseq(rest, whole)
    requires IsSubseq(Strip(m, c), rest)
    requires appendOnly ==> IsSubseq(m, rest + [c])
    ensures IsSubseq(Strip(m, c), whole)
    ensures appendOnly ==> IsSubseq(m, whole + [c])
  {
    SubseqTrans(Strip(m, c), rest, whole);
    if appendOnly {
      SubseqAppendBoth(rest, whole, c);
      SubseqTrans(m, rest + [c], whole + [c]);
    }
  }

  /** The compare-scan stopping at an `equal` member keeps the order guarantee. */
  lemma EqualStopOrder(cmp: Comparator, keepEquals: bool, prefix: seq<Candidate>, suffix: seq<Candidate>, c: Candidate)
    requires |prefix| > 0 && c !in prefix + suffix
    requires cmp(c, prefix[|prefix| - 1]).decision != -1 && cmp(c, prefix[|prefix| - 1]).equal
    ensures IsSubseq(Strip(ScanCompare(cmp, keepEquals, prefix, suffix, c).members, c), prefix + suffix)
    ensures !keepEquals ==> IsSubseq(ScanCompare(cmp, keepEquals, prefix, suffix, c).members, prefix + suffix + [c])
  {
    var i := |prefix| - 1;
    var pc := prefix[i];
    var kept := if cmp(c, pc).decision == 1 then [] else [pc];
    var ins := if keepEquals then [c] else [];
    ScanStep(prefix, kept, suffix);
    assert prefix[..i] + kept + suffix == prefix[..i] + (kept + suffix);
    assert ScanCompare(cmp, keepEquals, prefix, suffix, c).members == prefix[..i] + ins + (kept + suffix);
    InsertedBetween(prefix[..i], ins, kept + suffix, c, prefix + suffix);
  }

  /** A compare-scan deletes members and inserts c at most once; the members that
      survive keep their order. Without `keepEquals`, c can only be appended. */
  lemma {:induction false} ScanCompareOrder(cmp: Comparator, keepEquals: bool,
                                            prefix: seq<Candidate>, suffix: seq<Candidate>, c: Candidate)
    requires c !in prefix + suffix
    ensures IsSubseq(Strip(ScanCompare(cmp, keepEquals, prefix, suffix, c).members, c), prefix + suffix)
    ensures !keepEquals ==> IsSubseq(ScanCompare(cmp, keepEquals, prefix, suffix, c).members, prefix + suffix + [c])
    decreases |prefix|
  {
    var r := ScanCompare(cmp, keepEquals, prefix, suffix, c);
    if |prefix| == 0 {
      assert prefix + suffix == suffix;
      AppendedAtEnd(suffix, c);
    } else {
      var i := |prefix| - 1;
      var pc := prefix[i];
      var verdict := cmp(c, pc);
      if verdict.decision == -1 {
        Rejected(prefix + suffix, c);
      } else {
        var kept := if verdict.decision == 1 then [] else [pc];
        ScanStep(prefix, kept, suffix);
        assert prefix[..i] + kept + suffix == prefix[..i] + (kept + suffix);
        if verdict.equal {
          EqualStopOrder(cmp, keepEquals, prefix, suffix, c);
        } else {
          ScanCompareOrder(cmp, keepEquals, prefix[..i], kept + suffix, c);
          Continued(r.members, prefix[..i] + (kept + suffix), prefix + suffix, c, !keepEquals);
        }
      }
    }
  }

  /** The same for the diversity scan. */
  lemma {:induction false} ScanDiversityOrder(dominates: (Candidate, Candidate) -> bool, equal: (Candidate, Candidate) -> bool,
                                              keepEquals: bool, prefix: seq<Candidate>, suffix: seq<Candidate>, c: Candidate)
    requires c !in prefix + suffix
    ensures IsSubseq(Strip(ScanDiversity(dominates, equal, keepEquals, prefix, suffix, c).members, c), prefix + suffix)
    ensures !keepEquals ==> IsSubseq(ScanDiversity(dominates, equal, keepEquals, prefix, suffix, c).members, prefix + suffix + [c])
    decreases |prefix|
  {
    var r := ScanDiversity(dominates, equal, keepEquals, prefix, suffix, c);
    if |prefix| == 0 {
      assert prefix + suffix == suffix;
      AppendedAtEnd(suffix, c);
    } else {
      var i := |prefix| - 1;
      var pc := prefix[i];
      assert prefix == prefix[..i] + [pc];
      assert prefix[..i] + ([pc] + suffix) == prefix + suffix;
      if equal(pc, c) {
        SubseqRefl(prefix + suffix);
        assert r.members == prefix[..i] + (if keepEquals then [c] else []) + ([pc] + suffix);
        InsertedBetween(prefix[..i], if keepEquals then [c] else [], [pc] + suffix, c, prefix + suffix);
      } else if dominates(c, pc) {
        ScanStep(prefix, [], suffix);
        assert prefix[..i] + [] + suffix == prefix[..i] + suffix;
        ScanDiversityOrder(dominates, equal, keepEquals, prefix[..i], suffix, c);
        Continued(r.members, prefix[..i] + suffix, prefix + suffix, c, !keepEquals);
      } else if dominates(pc, c) {
        Rejected(prefix + suffix, c);
      } else {
        ScanDiversityOrder(dominates, equal, keepEquals, prefix[..i], [pc] + suffix, c);
      }
    }
  }

  // ---------------------------------------------------------------- counting

  /** A compare-scan never duplicates a member: as a multiset, the result is
      contained in the list plus c. */
  lemma {:induction false} ScanCompareCount(cmp: Comparator, keepEquals: bool,
                                            prefix: seq<Candidate>, suffix: seq<Candidate>, c: Candidate)
    ensures multiset(ScanCompare(cmp, keepEquals, prefix, suffix, c).members) <= multiset(prefix + suffix) + multiset{c}
    decreases |prefix|
  {
    if |prefix| > 0 {
      var i := |prefix| - 1;
      var pc := prefix[i];
      assert prefix == prefix[..i] + [pc];
      var verdict := cmp(c, pc);
      if verdict.decision != -1 {
        var kept := if verdict.decision == 1 then [] else [pc];
        assert multiset(prefix[..i] + (kept + suffix)) <= multiset(prefix + suffix);
        if !verdict.equal {
          ScanCompareCount(cmp, keepEquals, prefix[..i], kept + suffix, c);
        }
      }
    }
  }

  /** The same for the diversity scan. */
  lemma {:induction false} ScanDiversityCount(dominates: (Candidate, Candidate) -> bool, equal: (Candidate, Candidate) -> bool,
                                              keepEquals: bool, prefix: seq<Candidate>, suffix: seq<Candidate>, c: Candidate)
    ensures multiset(ScanDiversity(dominates, equal, keepEquals, prefix, suffix, c).members) <= multiset(prefix + suffix) + multiset{c}
    decreases |prefix|
  {
    if |prefix| > 0 {
      var i := |prefix| - 1;
      var pc := prefix[i];
      assert prefix == prefix[..i] + [pc];
      assert prefix[..i] + ([pc] + suffix) == prefix + suffix;
      if !equal(pc, c) {
        if dominates(c, pc) {
          assert multiset(prefix[..i] + suffix) <= multiset(prefix + suffix);
          ScanDiversityCount(dominates, equal, keepEquals, prefix[..i], suffix, c);
        } else if !dominates(pc, c) {
          ScanDiversityCount(dominates, equal, keepEquals, prefix[..i], [pc] + suffix, c);
        }
      }
    }
  }

  // ---------------------------------------------------------------- the equal branch

  /** Comparing c against anything, `equal` comes only with decision -1: a scan
      inserting c never takes its `equal` branch. */
  ghost predicate EqualRejects(cmp: Comparator, c: Candidate) {
    forall y: Candidate :: cmp(c, y).equal ==> cmp(c, y).decision == -1
  }

  /** For a candidate with at least one objective, the weighted comparator is such a comparator. */
  lemma WeightedEqualRejects(alpha: real, dirs: seq<Direction>, weights: seq<real>, tol: real, c: Candidate)
    requires |c.objectives| > 0
    ensures EqualRejects(WeightedComparator(alpha, dirs, weights, tol), c)
  {
    forall y: Candidate
      ensures WeightedComparator(alpha, dirs, weights, tol)(c, y).equal ==>
              WeightedComparator(alpha, dirs, weights, tol)(c, y).decision == -1
    {
      if |c.objectives| == |y.objectives| <= |dirs| && |c.objectives| <= |weights| {
        WeightedEqualIsDead(c.objectives, y.objectives, alpha, dirs, weights, tol);
      }
    }
  }

  /** Under such a comparator the scan never reports `equalsExisting`. */
  lemma {:induction false} NoEqualStop(cmp: Comparator, keepEquals: bool,
                                       prefix: seq<Candidate>, suffix: seq<Candidate>, c: Candidate)
    requires EqualRejects(cmp, c)
    ensures !ScanCompare(cmp, keepEquals, prefix, suffix, c).equalsExisting
    decreases |prefix|
  {
    if |prefix| > 0 {
      var i := |prefix| - 1;
      var pc := prefix[i];
      var verdict := cmp(c, pc);
      if verdict.decision != -1 {
        var kept := if verdict.decision == 1 then [] else [pc];
        NoEqualStop(cmp, keepEquals, prefix[..i], kept + suffix, c);
      }
    }
  }

  // ---------------------------------------------------------------- the update functions

  /** `UpdatePareto`: returns true exactly when c is in the list afterwards; the new
      list is the old one with members deleted and c inserted at most once, the
      survivors in their old order; when c was `equal` to a member the result is
      `keepEquals`. */
  function UpdatePareto(P: seq<Candidate>, c: Candidate, dirs: seq<Direction>, tol: real, keepEquals: bool): (r: Update)
    requires Conforms(P, |c.objectives|) && |c.objectives| <= |dirs|
    ensures |r.members| <= |P| + 1
    ensures forall x | x in r.members :: x in P || x == c
    ensures multiset(r.members) <= multiset(P) + multiset{c}
    ensures c !in P ==> (r.added <==> c in r.members)
    ensures c !in P ==> IsSubseq(Strip(r.members, c), P)
    ensures c !in P && !keepEquals ==> IsSubseq(r.members, P + [c])
    ensures r.equalsExisting ==> r.added == keepEquals
  {
    assert P + [] == P;
    ScanCompareCount(PlainComparator(dirs, tol), keepEquals, P, [], c);
    if c !in P then
      ScanCompareOrder(PlainComparator(dirs, tol), keepEquals, P, [], c);
      ScanCompare(PlainComparator(dirs, tol), keepEquals, P, [], c)
    else ScanCompare(PlainComparator(dirs, tol), keepEquals, P, [], c)
  }

  /** `UpdateParetoWithWeights`: as `UpdatePareto`, except that with at least one
      objective `equalsExisting` is always false: the `equal` branch is unreachable. */
  function UpdateParetoWithWeights(P: seq<Candidate>, c: Candidate, alpha: real, dirs: seq<Direction>,
                                   weights: seq<real>, tol: real, keepEquals: bool): (r: Update)
    requires Conforms(P, |c.objectives|) && |c.objectives| <= |dirs| && |c.objectives| <= |weights|
    ensures |r.members| <= |P| + 1
    ensures forall x | x in r.members :: x in P || x == c
    ensures multiset(r.members) <= multiset(P) + multiset{c}
    ensures c !in P ==> (r.added <==> c in r.members)
    ensures c !in P ==> IsSubseq(Strip(r.members, c), P)
    ensures c !in P && !keepEquals ==> IsSubseq(r.members, P + [c])
    ensures |c.objectives| > 0 ==> !r.equalsExisting
  {
    var cmp := WeightedComparator(alpha, dirs, weights, tol);
    assert P + [] == P;
    ScanCompareCount(cmp, keepEquals, P, [], c);
    assert c !in P ==> IsSubseq(Strip(ScanCompare(cmp, keepEquals, P, [], c).members, c), P) by {
      if c !in P { ScanCompareOrder(cmp, keepEquals, P, [], c); }
    }
    assert c !in P && !keepEquals ==> IsSubseq(ScanCompare(cmp, keepEquals, P, [], c).members, P + [c]) by {
      if c !in P { ScanCompareOrder(cmp, keepEquals, P, [], c); }
    }
    assert |c.objectives| > 0 ==> !ScanCompare(cmp, keepEquals, P, [], c).equalsExisting by {
      if |c.objectives| > 0 {
        WeightedEqualRejects(alpha, dirs, weights, tol, c);
        NoEqualStop(cmp, keepEquals, P, [], c);
      }
    }
    ScanCompare(cmp, keepEquals, P, [], c)
  }

  /** `UpdateParetoDiversity`: the same guarantees as `UpdatePareto`. */
  function UpdateParetoDiversity(P: seq<Candidate>, c: Candidate, alpha: real, dirs: seq<Direction>,
                                 tol: real, keepEquals: bool): (r: Update)
    requires Conforms(P, |c.objectives|) && |c.objectives| <= |dirs| && Nonzero(P) && NoZero(c.objectives)
    ensures |r.members| <= |P| + 1
    ensures forall x | x in r.members :: x in P || x == c
    ensures multiset(r.members) <= multiset(P) + multiset{c}
    ensures c !in P ==> (r.added <==> c in r.members)
    ensures c !in P ==> IsSubseq(Strip(r.members, c), P)
    ensures c !in P && !keepEquals ==> IsSubseq(r.members, P + [c])
    ensures r.equalsExisting ==> r.added == keepEquals
  {
    var dd := DiversityDominance(alpha, dirs);
    var eq := ToleranceEqual(tol);
    assert P + [] == P;
    ScanDiversityCount(dd, eq, keepEquals, P, [], c);
    if c !in P then ScanDiversityOrder(dd, eq, keepEquals, P, [], c); ScanDiversity(dd, eq, keepEquals, P, [], c)
    else ScanDiversity(dd, eq, keepEquals, P, [], c)
  }

  /** What `UpdatePareto` removes and when it rejects c: a member is gone only if
      `Dominates(c, member)` is 1; c is rejected only by a member for which it is -1,
      or at an `equal` member; an update that appends c met neither and removed
      exactly the members for which it is 1. */
  lemma UpdateParetoRule(P: seq<Candidate>, c: Candidate, dirs: seq<Direction>, tol: real, keepEquals: bool)
    requires Conforms(P, |c.objectives|) && |c.objectives| <= |dirs|
    ensures var r := UpdatePareto(P, c, dirs, tol, keepEquals);
            forall x | x in P && x !in r.members :: Dominates(c.objectives, x.objectives, dirs, tol).decision == 1
    ensures var r := UpdatePareto(P, c, dirs, tol, keepEquals);
            !r.added && !r.equalsExisting ==>
              exists x | x in P :: Dominates(c.objectives, x.objectives, dirs, tol).decision == -1
    ensures var r := UpdatePareto(P, c, dirs, tol, keepEquals);
            r.equalsExisting ==> exists x | x in P :: Dominates(c.objectives, x.objectives, dirs, tol).equal
    ensures var r := UpdatePareto(P, c, dirs, tol, keepEquals);
            r.added && !r.equalsExisting ==> forall x | x in P ::
              Dominates(c.objectives, x.objectives, dirs, tol).decision != -1 &&
              !Dominates(c.objectives, x.objectives, dirs, tol).equal
    ensures var r := UpdatePareto(P, c, dirs, tol, keepEquals);
            r.added && !r.equalsExisting ==> forall x | x in P && x != c ::
              (x in r.members <==> Dominates(c.objectives, x.objectives, dirs, tol).decision != 1)
    ensures var r := UpdatePareto(P, c, dirs, tol, keepEquals);
            (forall x | x in P :: !Stops(PlainComparator(dirs, tol)(c, x))) ==>
              r.added && !r.equalsExisting && r.members == Undominated(PlainComparator(dirs, tol), c, P) + [c]
    ensures var r := UpdatePareto(P, c, dirs, tol, keepEquals);
            forall j | LastStop(PlainComparator(dirs, tol), c, P, j) :: StoppedAt(PlainComparator(dirs, tol), keepEquals, P, [], c, r, j)
  {
    var cmp := PlainComparator(dirs, tol);
    ScanCompareRule(cmp, keepEquals, P, [], c);
    ScanCompareStop(cmp, keepEquals, P, [], c);
    if forall x | x in P :: !Stops(cmp(c, x)) {
      ScanCompareAppends(cmp, keepEquals, P, [], c);
      assert Undominated(cmp, c, P) + [] == Undominated(cmp, c, P);
    }
  }

  /** The same rule for `UpdateParetoWithWeights`, with `DominatesWithWeights`. */
  lemma UpdateParetoWithWeightsRule(P: seq<Candidate>, c: Candidate, alpha: real, dirs: seq<Direction>,
                                    weights: seq<real>, tol: real, keepEquals: bool)
    requires Conforms(P, |c.objectives|) && |c.objectives| <= |dirs| && |c.objectives| <= |weights|
    ensures var r := UpdateParetoWithWeights(P, c, alpha, dirs, weights, tol, keepEquals);
            forall x | x in P && x !in r.members ::
              DominatesWithWeights(c.objectives, x.objectives, alpha, dirs, weights, tol).decision == 1
    ensures var r := UpdateParetoWithWeights(P, c, alpha, dirs, weights, tol, keepEquals);
            !r.added && !r.equalsExisting ==>
              exists x | x in P :: DominatesWithWeights(c.objectives, x.objectives, alpha, dirs, weights, tol).decision == -1
    ensures var r := UpdateParetoWithWeights(P, c, alpha, dirs, weights, tol, keepEquals);
            r.added && !r.equalsExisting ==> forall x | x in P ::
              DominatesWithWeights(c.objectives, x.objectives, alpha, dirs, weights, tol).decision != -1
    ensures var r := UpdateParetoWithWeights(P, c, alpha, dirs, weights, tol, keepEquals);
            r.added && !r.equalsExisting ==> forall x | x in P && x != c ::
              (x in r.members <==> DominatesWithWeights(c.objectives, x.objectives, alpha, dirs, weights, tol).decision != 1)
    ensures var r := UpdateParetoWithWeights(P, c, alpha, dirs, weights, tol, keepEquals);
            (forall x | x in P :: !Stops(WeightedComparator(alpha, dirs, weights, tol)(c, x))) ==>
              r.added && !r.equalsExisting && r.members == Undominated(WeightedComparator(alpha, dirs, weights, tol), c, P) + [c]
    ensures var r := UpdateParetoWithWeights(P, c, alpha, dirs, weights, tol, keepEquals);
            forall j | LastStop(WeightedComparator(alpha, dirs, weights, tol), c, P, j) ::
              StoppedAt(WeightedComparator(alpha, dirs, weights, tol), keepEquals, P, [], c, r, j)
  {
    var cmp := WeightedComparator(alpha, dirs, weights, tol);
    ScanCompareRule(cmp, keepEquals, P, [], c);
    ScanCompareStop(cmp, keepEquals, P, [], c);
    if forall x | x in P :: !Stops(cmp(c, x)) {
      ScanCompareAppends(cmp, keepEquals, P, [], c);
      assert Undominated(cmp, c, P) + [] == Undominated(cmp, c, P);
    }
  }

  /** The same rule for `UpdateParetoDiversity`, where `CheckIfEqual` is tested
      first: c is rejected only by a member it is not equal to, does not dominate,
      and is dominated by, or at an equal member, which stays. */
  lemma UpdateParetoDiversityRule(P: seq<Candidate>, c: Candidate, alpha: real, dirs: seq<Direction>,
                                  tol: real, keepEquals: bool)
    requires Conforms(P, |c.objectives|) && |c.objectives| <= |dirs| && Nonzero(P) && NoZero(c.objectives)
    ensures var r := UpdateParetoDiversity(P, c, alpha, dirs, tol, keepEquals);
            forall x | x in P && x !in r.members :: DominatesDiversity(c.objectives, x.objectives, alpha, dirs)
    ensures var r := UpdateParetoDiversity(P, c, alpha, dirs, tol, keepEquals);
            !r.added && !r.equalsExisting ==> exists x | x in P ::
              && !CheckIfEqual(x.objectives, c.objectives, tol)
              && !DominatesDiversity(c.objectives, x.objectives, alpha, dirs)
              && DominatesDiversity(x.objectives, c.objectives, alpha, dirs)
    ensures var r := UpdateParetoDiversity(P, c, alpha, dirs, tol, keepEquals);
            r.equalsExisting ==> exists x | x in P :: CheckIfEqual(x.objectives, c.objectives, tol) && x in r.members
    ensures var r := UpdateParetoDiversity(P, c, alpha, dirs, tol, keepEquals);
            r.added && !r.equalsExisting ==> forall x | x in P ::
              && !CheckIfEqual(x.objectives, c.objectives, tol)
              && (DominatesDiversity(c.objectives, x.objectives, alpha, dirs) ||
                  !DominatesDiversity(x.objectives, c.objectives, alpha, dirs))
    ensures var r := UpdateParetoDiversity(P, c, alpha, dirs, tol, keepEquals);
            r.added && !r.equalsExisting ==> forall x | x in P && x != c ::
              (x in r.members <==> !DominatesDiversity(c.objectives, x.objectives, alpha, dirs))
    ensures var r := UpdateParetoDiversity(P, c, alpha, dirs, tol, keepEquals);
            (forall x | x in P :: !DiversityStops(DiversityDominance(alpha, dirs), ToleranceEqual(tol), c, x)) ==>
              r.added && !r.equalsExisting && r.members == NotDominated(DiversityDominance(alpha, dirs), c, P) + [c]
    ensures var r := UpdateParetoDiversity(P, c, alpha, dirs, tol, keepEquals);
            forall j | DiversityLastStop(DiversityDominance(alpha, dirs), ToleranceEqual(tol), c, P, j) ::
              DiversityStoppedAt(DiversityDominance(alpha, dirs), ToleranceEqual(tol), keepEquals, P, [], c, r, j)
  {
    var dd := DiversityDominance(alpha, dirs);
    var eq := ToleranceEqual(tol);
    ScanDiversityRule(dd, eq, keepEquals, P, [], c);
    ScanDiversityStop(dd, eq, keepEquals, P, [], c);
    if forall x | x in P :: !DiversityStops(dd, eq, c, x) {
      ScanDiversityAppends(dd, eq, keepEquals, P, [], c);
      assert NotDominated(dd, c, P) + [] == NotDominated(dd, c, P);
    }
  }

  // ---------------------------------------------------------------- equality checked first

  /** The compare-scan with the `equal` test moved before the removal, the order
      `UpdateParetoDiversity` uses: a member c is `equal` to stays in the list. */
  function ScanEqualFirst(cmp: Comparator, keepEquals: bool,
                          prefix: seq<Candidate>, suffix: seq<Candidate>, c: Candidate): (r: Update)
    ensures |r.members| <= |prefix| + |suffix| + 1
    ensures forall x | x in r.members :: x in prefix || x in suffix || x == c
    ensures c !in prefix + suffix ==> (r.added <==> c in r.members)
    ensures r.equalsExisting ==> r.added == keepEquals
    ensures r.equalsExisting ==> exists x | x in prefix :: x in r.members && cmp(c, x).equal
    decreases |prefix|
  {
    if |prefix| == 0 then Update(suffix + [c], true, false)
    else
      var i := |prefix| - 1;
      var pc := prefix[i];
      assert prefix == prefix[..i] + [pc];
      var verdict := cmp(c, pc);
      if verdict.equal then
        var r := Update(prefix[..i] + (if keepEquals then [c] else []) + [pc] + suffix, keepEquals, true);
        assert pc in prefix && pc in r.members;
        r
      else if verdict.decision == -1 then Update(prefix + suffix, false, false)
      else
        var kept := if verdict.decision == 1 then [] else [pc];
        ScanEqualFirst(cmp, keepEquals, prefix[..i], kept + suffix, c)
  }

  /** `UpdatePareto` with equality checked first: after an `equal` stop, a member
      `equal` to c is still in the list. */
  function UpdateParetoEqualsFirst(P: seq<Candidate>, c: Candidate, dirs: seq<Direction>, tol: real, keepEquals: bool): (r: Update)
    requires Conforms(P, |c.objectives|) && |c.objectives| <= |dirs|
    ensures |r.members| <= |P| + 1
    ensures forall x | x in r.members :: x in P || x == c
    ensures c !in P ==> (r.added <==> c in r.members)
    ensures r.equalsExisting ==> r.added == keepEquals
    ensures r.equalsExisting ==> exists x | x in P :: x in r.members && Dominates(c.objectives, x.objectives, dirs, tol).equal
  {
    assert P + [] == P;
    var r := ScanEqualFirst(PlainComparator(dirs, tol), keepEquals, P, [], c);
    if r.equalsExisting then
      var x :| x in P && x in r.members && PlainComparator(dirs, tol)(c, x).equal;
      assert Dominates(c.objectives, x.objectives, dirs, tol).equal;
      r
    else r
  }

  /** The plain builder over `UpdateParetoEqualsFirst`. */
  function FindParetoCandidatesPlainEqualsFirst(cands: seq<Candidate>, tol: real, keepEquals: bool, dirs: seq<Direction>): (r: seq<Candidate>)
    requires Conforms(cands, Width(cands)) && Width(cands) <= |dirs|
    ensures |r| <= |cands|
    ensures forall x | x in r :: x in cands
    decreases |cands|
  {
    if |cands| == 0 then []
    else
      var n := |cands| - 1;
      var c := cands[n];
      assert cands == cands[..n] + [c];
      var P := FindParetoCandidatesPlainEqualsFirst(cands[..n], tol, keepEquals, dirs);
      UpdateParetoEqualsFirst(P, c, dirs, tol, keepEquals).members
  }

  // ---------------------------------------------------------------- builders

  /** Dropping the last of distinct elements leaves distinct elements without it. */
  lemma DistinctPrefix(s: seq<Candidate>)
    requires |s| > 0 && Distinct(s)
    ensures Distinct(s[..|s| - 1]) && s[|s| - 1] !in s[..|s| - 1]
  {
  }

  /** The fold step keeps input order: with the frontier `P` of the earlier
      candidates in order and the last candidate c at most appended, the new list is
      in input order. */
  lemma InOrder(cands: seq<Candidate>, P: seq<Candidate>, r: seq<Candidate>)
    requires |cands| > 0 && Distinct(cands)
    requires IsSubseq(P, cands[..|cands| - 1])
    requires forall x | x in P :: x in cands[..|cands| - 1]
    requires cands[|cands| - 1] !in P ==> IsSubseq(r, P + [cands[|cands| - 1]])
    ensures IsSubseq(r, cands)
  {
    var n := |cands| - 1;
    var c := cands[n];
    assert cands == cands[..n] + [c];
    DistinctPrefix(cands);
    SubseqAppendBoth(P, cands[..n], c);
    SubseqTrans(r, P + [c], cands);
  }

  /** `FindParetoCandidates` with explicit directions: weighted updates when
      weights are given, diversity updates otherwise, one candidate at a time. */
  function FindParetoCandidates(cands: seq<Candidate>, alpha: real, dirs: seq<Direction>,
                                weights: Option<seq<real>>, tol: real, keepEquals: bool): (r: seq<Candidate>)
    requires Conforms(cands, Width(cands)) && Width(cands) <= |dirs|
    requires weights.Some? ==> Width(cands) <= |weights.value|
    requires weights.None? ==> Nonzero(cands)
    ensures |r| <= |cands|
    ensures forall x | x in r :: x in cands
    ensures multiset(r) <= multiset(cands)
    decreases |cands|
  {
    if |cands| == 0 then []
    else
      var n := |cands| - 1;
      var c := cands[n];
      assert cands == cands[..n] + [c];
      assert multiset(cands) == multiset(cands[..n]) + multiset{c};
      var P := FindParetoCandidates(cands[..n], alpha, dirs, weights, tol, keepEquals);
      match weights
      case Some(w) => UpdateParetoWithWeights(P, c, alpha, dirs, w, tol, keepEquals).members
      case None => UpdateParetoDiversity(P, c, alpha, dirs, tol, keepEquals).members
  }

  /** `FindParetoCandidates(candidates, tolerance, keepEquals, optDirections)`: the plain builder. */
  function FindParetoCandidatesPlain(cands: seq<Candidate>, tol: real, keepEquals: bool, dirs: seq<Direction>): (r: seq<Candidate>)
    requires Conforms(cands, Width(cands)) && Width(cands) <= |dirs|
    ensures |r| <= |cands|
    ensures forall x | x in r :: x in cands
    ensures multiset(r) <= multiset(cands)
    decreases |cands|
  {
    if |cands| == 0 then []
    else
      var n := |cands| - 1;
      var c := cands[n];
      assert cands == cands[..n] + [c];
      assert multiset(cands) == multiset(cands[..n]) + multiset{c};
      var P := FindParetoCandidatesPlain(cands[..n], tol, keepEquals, dirs);
      UpdatePareto(P, c, dirs, tol, keepEquals).members
  }

  /** Without `keepEquals`, the frontier of distinct candidates lists its members
      in input order. */
  lemma {:induction false} FrontierInOrder(cands: seq<Candidate>, alpha: real, dirs: seq<Direction>,
                                           weights: Option<seq<real>>, tol: real)
    requires Conforms(cands, Width(cands)) && Width(cands) <= |dirs|
    requires weights.Some? ==> Width(cands) <= |weights.value|
    requires weights.None? ==> Nonzero(cands)
    requires Distinct(cands)
    ensures IsSubseq(FindParetoCandidates(cands, alpha, dirs, weights, tol, false), cands)
    decreases |cands|
  {
    if |cands| > 0 {
      var n := |cands| - 1;
      var c := cands[n];
      if n > 0 { assert cands[..n][0] == cands[0]; }
      DistinctPrefix(cands);
      FrontierInOrder(cands[..n], alpha, dirs, weights, tol);
      var P := FindParetoCandidates(cands[..n], alpha, dirs, weights, tol, false);
      InOrder(cands, P, FindParetoCandidates(cands, alpha, dirs, weights, tol, false));
    }
  }

  /** The same for the plain builder. */
  lemma {:induction false} PlainFrontierInOrder(cands: seq<Candidate>, tol: real, dirs: seq<Direction>)
    requires Conforms(cands, Width(cands)) && Width(cands) <= |dirs|
    requires Distinct(cands)
    ensures IsSubseq(FindParetoCandidatesPlain(cands, tol, false, dirs), cands)
    decreases |cands|
  {
    if |cands| > 0 {
      var n := |cands| - 1;
      var c := cands[n];
      if n > 0 { assert cands[..n][0] == cands[0]; }
      DistinctPrefix(cands);
      PlainFrontierInOrder(cands[..n], tol, dirs);
      var P := FindParetoCandidatesPlain(cands[..n], tol, false, dirs);
      InOrder(cands, P, FindParetoCandidatesPlain(cands, tol, false, dirs));
    }
  }
}

=== FILE: skewboid_frontier_facts.dfy ===
/** What the newer builders guarantee about the list they produce, and how the
    two ways of handling a tolerance-equal candidate play out. */
module SkewboidFrontierFacts {
  import opened Objectives
  import opened Sequences
  import opened SkewboidDominance
  import opened SkewboidFrontier

  /** Earlier member `x` and later member `y` are incomparable: compared as the
      newcomer, `y` neither dominates `x` nor is dominated by it. */
  function Apart(cmp: Comparator): (Candidate, Candidate) -> bool {
    (x: Candidate, y: Candidate) => cmp(y, x).decision != 1 && cmp(y, x).decision != -1
  }

  /** The diversity counterpart: neither dominates the other and they are not
      tolerance-equal. */
  function Separate(dominates: (Candidate, Candidate) -> bool, equal: (Candidate, Candidate) -> bool): (Candidate, Candidate) -> bool {
    (x: Candidate, y: Candidate) => !equal(x, y) && !dominates(x, y) && !dominates(y, x)
  }

  /** A compare-scan keeps the list pairwise incomparable, provided c is
      incomparable with the members already looked at; with `keepEquals` this
      needs the `equal` branch to be unreachable for c. */
  lemma {:induction false} ScanCompareApart(cmp: Comparator, keepEquals: bool,
                                            prefix: seq<Candidate>, suffix: seq<Candidate>, c: Candidate)
    requires keepEquals ==> EqualRejects(cmp, c)
    requires Pairwise(prefix + suffix, Apart(cmp))
    requires forall x | x in suffix :: Apart(cmp)(x, c)
    ensures Pairwise(ScanCompare(cmp, keepEquals, prefix, suffix, c).members, Apart(cmp))
    decreases |prefix|
  {
    if |prefix| == 0 {
      assert prefix + suffix == suffix;
      PairwiseAppend(suffix, c, Apart(cmp));
    } else {
      var i := |prefix| - 1;
      var pc := prefix[i];
      var verdict := cmp(c, pc);
      if verdict.decision != -1 {
        var kept := if verdict.decision == 1 then [] else [pc];
        PairwiseScanStep(prefix, kept, suffix, Apart(cmp));
        if verdict.equal {
          assert !keepEquals;
          assert ScanCompare(cmp, keepEquals, prefix, suffix, c).members == prefix[..i] + kept + suffix;
        } else {
          assert prefix[..i] + kept + suffix == prefix[..i] + (kept + suffix);
          assert forall x | x in kept :: Apart(cmp)(x, c);
          ScanCompareApart(cmp, keepEquals, prefix[..i], kept + suffix, c);
        }
      }
    }
  }

  /** The diversity scan without `keepEquals` keeps the list pairwise separate. */
  lemma {:induction false} ScanDiversitySeparate(dominates: (Candidate, Candidate) -> bool, equal: (Candidate, Candidate) -> bool,
                                                 prefix: seq<Candidate>, suffix: seq<Candidate>, c: Candidate)
    requires Pairwise(prefix + suffix, Separate(dominates, equal))
    requires forall x | x in suffix :: Separate(dominates, equal)(x, c)
    ensures Pairwise(ScanDiversity(dominates, equal, false, prefix, suffix, c).members, Separate(dominates, equal))
    decreases |prefix|
  {
    var R := Separate(dominates, equal);
    if |prefix| == 0 {
      assert prefix + suffix == suffix;
      PairwiseAppend(suffix, c, R);
    } else {
      var i := |prefix| - 1;
      var pc := prefix[i];
      assert prefix == prefix[..i] + [pc];
      if equal(pc, c) {
        assert ScanDiversity(dominates, equal, false, prefix, suffix, c).members == prefix + suffix;
      } else if dominates(c, pc) {
        PairwiseScanStep(prefix, [], suffix, R);
        assert prefix[..i] + [] + suffix == prefix[..i] + suffix;
        ScanDiversitySeparate(dominates, equal, prefix[..i], suffix, c);
      } else if !dominates(pc, c) {
        assert prefix[..i] + ([pc] + suffix) == prefix + suffix;
        ScanDiversitySeparate(dominates, equal, prefix[..i], [pc] + suffix, c);
      }
    }
  }

  /** The plain builder without `keepEquals`: no member of the result dominates,
      or is dominated by, a member added after it. */
  lemma {:induction false} PlainFrontierApart(cands: seq<Candidate>, tol: real, dirs: seq<Direction>)
    requires Conforms(cands, Width(cands)) && Width(cands) <= |dirs|
    ensures Pairwise(FindParetoCandidatesPlain(cands, tol, false, dirs), Apart(PlainComparator(dirs, tol)))
    decreases |cands|
  {
    if |cands| > 0 {
      var n := |cands| - 1;
      var c := cands[n];
      assert cands == cands[..n] + [c];
      PlainFrontierApart(cands[..n], tol, dirs);
      var P := FindParetoCandidatesPlain(cands[..n], tol, false, dirs);
      assert P + [] == P;
      ScanCompareApart(PlainComparator(dirs, tol), false, P, [], c);
    }
  }

  /** Candidates without objectives: the weighted comparator calls any two of them
      equal with decision 1, so each newcomer removes the one member there is and
      replaces it only with `keepEquals`. The frontier never holds two members. */
  lemma {:induction false} WeightedFrontierEmpty(cands: seq<Candidate>, alpha: real, dirs: seq<Direction>,
                                                 weights: seq<real>, tol: real, keepEquals: bool)
    requires Conforms(cands, 0)
    ensures |FindParetoCandidates(cands, alpha, dirs, Some(weights), tol, keepEquals)| <= 1
    decreases |cands|
  {
    if |cands| > 0 {
      var n := |cands| - 1;
      var c := cands[n];
      assert cands == cands[..n] + [c];
      assert forall x | x in cands[..n] :: x in cands;
      WeightedFrontierEmpty(cands[..n], alpha, dirs, weights, tol, keepEquals);
      var P := FindParetoCandidates(cands[..n], alpha, dirs, Some(weights), tol, keepEquals);
      assert Conforms(P, 0);
      WeightedEmptyStep(P, c, alpha, dirs, weights, tol, keepEquals);
    }
  }

  /** One weighted update step on candidates without objectives. */
  lemma WeightedEmptyStep(P: seq<Candidate>, c: Candidate, alpha: real, dirs: seq<Direction>,
                          weights: seq<real>, tol: real, keepEquals: bool)
    requires Conforms(P, 0) && |P| <= 1 && |c.objectives| == 0
    ensures |UpdateParetoWithWeights(P, c, alpha, dirs, weights, tol, keepEquals).members| <= 1
  {
    if |P| == 1 {
      var cmp := WeightedComparator(alpha, dirs, weights, tol);
      assert P == [P[0]];
      assert P[0] in P;
      assert cmp(c, P[0]) == Comparison(1, true);
      ScanEqualSingle(cmp, keepEquals, P[0], c);
    }
  }

  /** A single member that c dominates and equals: it goes, and c replaces it only
      with `keepEquals`. */
  lemma ScanEqualSingle(cmp: Comparator, keepEquals: bool, x: Candidate, c: Candidate)
    requires cmp(c, x) == Comparison(1, true)
    ensures ScanCompare(cmp, keepEquals, [x], [], c).members == if keepEquals then [c] else []
  {
    assert [x][..0] == [];
  }

  /** The weighted builder, with or without `keepEquals`: the same
      incomparability. With at least one objective, an `equal` verdict always
      rejects, so the `keepEquals` insertion never happens; with none, the frontier
      has at most one member. */
  lemma {:induction false} WeightedFrontierApart(cands: seq<Candidate>, alpha: real, dirs: seq<Direction>,
                                                 weights: seq<real>, tol: real, keepEquals: bool)
    requires Conforms(cands, Width(cands)) && Width(cands) <= |dirs| && Width(cands) <= |weights|
    ensures Pairwise(FindParetoCandidates(cands, alpha, dirs, Some(weights), tol, keepEquals),
                     Apart(WeightedComparator(alpha, dirs, weights, tol)))
    decreases |cands|
  {
    if Width(cands) == 0 {
      WeightedFrontierEmpty(cands, alpha, dirs, weights, tol, keepEquals);
    } else {
      WeightedFrontierWide(cands, alpha, dirs, weights, tol, keepEquals);
    }
  }

  /** The case of at least one objective, by induction over the candidates. */
  lemma {:induction false} WeightedFrontierWide(cands: seq<Candidate>, alpha: real, dirs: seq<Direction>,
                                                weights: seq<real>, tol: real, keepEquals: bool)
    requires Conforms(cands, Width(cands)) && 0 < Width(cands) <= |dirs| && Width(cands) <= |weights|
    ensures Pairwise(FindParetoCandidates(cands, alpha, dirs, Some(weights), tol, keepEquals),
                     Apart(WeightedComparator(alpha, dirs, weights, tol)))
    decreases |cands|
  {
    if |cands| > 0 {
      var n := |cands| - 1;
      var c := cands[n];
      assert cands == cands[..n] + [c];
      if n > 0 {
        assert cands[..n][0] == cands[0];
        WeightedFrontierWide(cands[..n], alpha, dirs, weights, tol, keepEquals);
      }
      var P := FindParetoCandidates(cands[..n], alpha, dirs, Some(weights), tol, keepEquals);
      assert P + [] == P;
      WeightedEqualRejects(alpha, dirs, weights, tol, c);
      ScanCompareApart(WeightedComparator(alpha, dirs, weights, tol), keepEquals, P, [], c);
    }
  }

  /** The diversity builder without `keepEquals`: no two members dominate one
      another in either direction, and no two are tolerance-equal. */
  lemma {:induction false} DiversityFrontierSeparate(cands: seq<Candidate>, alpha: real, dirs: seq<Direction>, tol: real)
    requires Conforms(cands, Width(cands)) && Width(cands) <= |dirs| && Nonzero(cands)
    ensures Pairwise(FindParetoCandidates(cands, alpha, dirs, None, tol, false),
                     Separate(DiversityDominance(alpha, dirs), ToleranceEqual(tol)))
    decreases |cands|
  {
    if |cands| > 0 {
      var n := |cands| - 1;
      var c := cands[n];
      assert cands == cands[..n] + [c];
      DiversityFrontierSeparate(cands[..n], alpha, dirs, tol);
      var P := FindParetoCandidates(cands[..n], alpha, dirs, None, tol, false);
      assert P + [] == P;
      ScanDiversitySeparate(DiversityDominance(alpha, dirs), ToleranceEqual(tol), P, [], c);
    }
  }

  // ---------------------------------------------------------------- tolerance-equal candidates

  /** `UpdatePareto` meeting a member `pc` from which c is indistinct in every
      objective: `Dominates` reports that as decision 1, so the member is removed;
      c takes its index only when `keepEquals`, and the scan stops. */
  lemma EqualMemberReplaced(dirs: seq<Direction>, tol: real, keepEquals: bool,
                            before: seq<Candidate>, pc: Candidate, suffix: seq<Candidate>, c: Candidate)
    requires |pc.objectives| == |c.objectives| <= |dirs|
    requires forall k | 0 <= k < |c.objectives| :: Indistinct(c.objectives[k], pc.objectives[k], tol)
    ensures ScanCompare(PlainComparator(dirs, tol), keepEquals, before + [pc], suffix, c)
         == Update(before + (if keepEquals then [c] else []) + suffix, keepEquals, true)
  {
    assert (before + [pc])[..|before|] == before;
    assert PlainComparator(dirs, tol)(c, pc).equal;
  }

  /** `UpdateParetoDiversity` meeting a member `pc` within tolerance of c: the
      member stays, c is placed immediately before it only when `keepEquals`, and
      the scan stops. */
  lemma EqualMemberKept(alpha: real, dirs: seq<Direction>, tol: real, keepEquals: bool,
                        before: seq<Candidate>, pc: Candidate, suffix: seq<Candidate>, c: Candidate)
    requires |pc.objectives| == |c.objectives|
    requires forall k | 0 <= k < |c.objectives| :: WithinTolerance(pc.objectives[k], c.objectives[k], tol)
    ensures ScanDiversity(DiversityDominance(alpha, dirs), ToleranceEqual(tol), keepEquals, before + [pc], suffix, c)
         == Update(before + (if keepEquals then [c] else []) + [pc] + suffix, keepEquals, true)
  {
    assert (before + [pc])[..|before|] == before;
  }

  /** Two candidates with the same single objective, one minimised. */
  const Twin1 := Candidate(1, [1.0])
  const Twin2 := Candidate(2, [1.0])

  /** The tolerance of the example. */
  const TwinTolerance: real := 0.0001

  /** `Dominates` reports the twins as equal, with decision 1. */
  lemma TwinsCompareEqual()
    ensures PlainComparator([Minimize], TwinTolerance)(Twin2, Twin1) == Comparison(1, true)
  {
    DominatesSelf([1.0], [Minimize], TwinTolerance);
  }

  /** A single twin is its own frontier, under either update. */
  lemma FirstTwinAlone()
    ensures FindParetoCandidatesPlain([Twin1], TwinTolerance, false, [Minimize]) == [Twin1]
    ensures FindParetoCandidatesPlainEqualsFirst([Twin1], TwinTolerance, false, [Minimize]) == [Twin1]
  {
    assert [Twin1][..0] == [];
  }

  /** As written, the plain builder without `keepEquals` loses both of two
      tolerance-equal candidates: the second removes the first and is then dropped. */
  lemma DuplicatesVanish()
    ensures FindParetoCandidatesPlain([Twin1, Twin2], TwinTolerance, false, [Minimize]) == []
  {
    TwinsCompareEqual();
    FirstTwinAlone();
    assert [Twin1, Twin2][..1] == [Twin1];
    assert [Twin1] + [] == [Twin1];
    assert ScanCompare(PlainComparator([Minimize], TwinTolerance), false, [Twin1], [], Twin2) == Update([], false, true);
  }

  /** The corrected update keeps one of them. */
  lemma DuplicatesKeptOnce()
    ensures FindParetoCandidatesPlainEqualsFirst([Twin1, Twin2], TwinTolerance, false, [Minimize]) == [Twin1]
  {
    TwinsCompareEqual();
    FirstTwinAlone();
    assert [Twin1, Twin2][..1] == [Twin1];
    assert [Twin1] + [] == [Twin1];
    assert ScanEqualFirst(PlainComparator([Minimize], TwinTolerance), false, [Twin1], [], Twin2) == Update([Twin1], false, true);
  }
}

=== FILE: skewboid_search.dfy ===
/** `FindGivenNumCandidates` of ParetoFunctions.cs: the search for an alpha whose
    skewboid frontier has `numKeep` members. */
module SkewboidSearch {
  import opened Objectives
  import opened SkewboidFrontier
  import opened Bracket

  /** What the search returns: the frontier and `out alphaTarget`. */
  datatype Outcome = Outcome(members: seq<Candidate>, alpha: real)

  /** The frontier at one alpha, as the search computes it. */
  function FrontierAt(cands: seq<Candidate>, alpha: real, weights: Option<seq<real>>, tol: real, keepEquals: bool,
                      optDirections: Option<seq<Direction>>): (r: seq<Candidate>)
    requires Admissible(cands, weights, optDirections)
    ensures |r| <= |cands|
    ensures forall x | x in r :: x in cands
  {
    FindParetoCandidates(cands, alpha, Directions(optDirections, Width(cands)), weights, tol, keepEquals)
  }

  /** `FrontierAt` as a function of alpha alone (empty for inputs the search rejects). */
  function Frontier(cands: seq<Candidate>, weights: Option<seq<real>>, tol: real, keepEquals: bool,
                    optDirections: Option<seq<Direction>>): real -> seq<Candidate> {
    (alpha: real) =>
      if Admissible(cands, weights, optDirections)
      then FrontierAt(cands, alpha, weights, tol, keepEquals, optDirections)
      else []
  }

  /** The secant loop of `FindGivenNumCandidates`, for any `frontier` whose sizes
      are at most `n`. The bracket [alphaLB, alphaUB] has more than `numKeep`
      members at its lower end (or is the untried end -1 with all `n`) and fewer at
      its upper end; each step computes the frontier at the secant alpha and moves
      the end on the same side of `numKeep` there. The loop runs at least once, so
      `alphaTarget` is never left at NaN. */
  method SecantSearch(frontier: real -> seq<Candidate>, n: nat, numKeep: int, numTarget0: int,
                      lb: real, ub: real, nLB: int, nUB: int)
    returns (members: seq<Candidate>, alpha: real, alphaLB: real, alphaUB: real)
    requires forall a: real :: |frontier(a)| <= n
    requires -1.0 <= lb && ub - lb == 1.0 && ub <= 1.0 && (ub <= 0.0 || lb >= 0.0)
    requires 0 <= nUB < numKeep < nLB <= n && numTarget0 != numKeep
    requires nUB == |frontier(ub)|
    requires lb == -1.0 ==> nLB == n
    requires lb != -1.0 ==> nLB == |frontier(lb)|
    ensures members == frontier(alpha)
    ensures -1.0 < alpha < 1.0 && alpha != 0.0
    ensures lb <= alphaLB < alphaUB <= ub
    ensures |frontier(alphaUB)| < numKeep
    ensures alphaLB == -1.0 || |frontier(alphaLB)| > numKeep
    ensures |members| == numKeep ==> alphaLB < alpha < alphaUB
    ensures |members| > numKeep ==> alpha == alphaLB && alphaUB - alphaLB <= AlphaTolerance
    ensures |members| < numKeep ==> alpha == alphaUB && alphaUB - alphaLB <= AlphaTolerance
  {
    alphaLB, alphaUB := lb, ub;
    var numAtLB, numAtUB := nLB, nUB;
    var numTarget := numTarget0;
    members := [];
    // `alphaTarget` starts as NaN; `None` stands for it
    var target: Option<real> := None;
    while numKeep != numTarget && alphaUB - alphaLB > AlphaTolerance
      invariant lb <= alphaLB < alphaUB <= ub
      invariant 0 <= numAtUB < numKeep < numAtLB <= n
      invariant numAtUB == |frontier(alphaUB)|
      invariant alphaLB == -1.0 ==> numAtLB == n
      invariant alphaLB != -1.0 ==> numAtLB == |frontier(alphaLB)|
      invariant target.None? ==> numTarget != numKeep && alphaLB == lb && alphaUB == ub
      invariant target.Some? ==> && members == frontier(target.value)
                                 && numTarget == |members|
                                 && -1.0 < target.value < 1.0 && target.value != 0.0
                                 && (numTarget > numKeep ==> target.value == alphaLB)
                                 && (numTarget < numKeep ==> target.value == alphaUB)
                                 && (numTarget == numKeep ==> alphaLB < target.value < alphaUB)
      decreases Budget(alphaLB, alphaUB, n), if numTarget == numKeep then 0 else 1
    {
      var d := numAtLB - numAtUB;
      var t := Secant(alphaLB, alphaUB, numAtLB, numAtUB, numKeep);
      ghost var lb0, ub0 := alphaLB, alphaUB;
      members := frontier(t);
      numTarget := |members|;
      target := Some(t);
      if numTarget > numKeep {
        alphaLB, numAtLB := t, numTarget;
      } else if numTarget < numKeep {
        alphaUB, numAtUB := t, numTarget;
      }
      if numTarget != numKeep {
        Progress(lb0, ub0, alphaLB, alphaUB, n, d);
      }
    }
    assert target.Some?;
    alpha := target.value;
  }

  /** The search. It computes the frontier at alpha 0 and returns it if its size is
      `numKeep`. Otherwise it brackets: with too few members it returns the input
      unchanged at alpha -1 if even that cannot exceed `numKeep`, else searches
      [-1, 0]; with too many it returns the frontier at alpha 1 if that still has
      at least `numKeep`, else searches [0, 1]. `alphaLB` and `alphaUB` are not returned by the search; they
      report its final bracket for the specification only. */
  method FindGivenNumCandidates(cands: seq<Candidate>, numKeep: int, weights: Option<seq<real>>, tol: real,
                                keepEquals: bool, optDirections: Option<seq<Direction>>)
    returns (r: Result<Outcome, Error>, ghost alphaLB: real, ghost alphaUB: real)
    requires Admissible(cands, weights, optDirections)
    ensures r.Failure? <==> |cands| == 0
    ensures r.Success? && |FrontierAt(cands, 0.0, weights, tol, keepEquals, optDirections)| == numKeep ==>
              r.value == Outcome(FrontierAt(cands, 0.0, weights, tol, keepEquals, optDirections), 0.0)
    ensures r.Success? && |FrontierAt(cands, 0.0, weights, tol, keepEquals, optDirections)| < numKeep
              && |cands| <= numKeep ==>
              r.value == Outcome(cands, -1.0)
    ensures r.Success? && |FrontierAt(cands, 0.0, weights, tol, keepEquals, optDirections)| > numKeep
              && |FrontierAt(cands, 1.0, weights, tol, keepEquals, optDirections)| >= numKeep ==>
              r.value == Outcome(FrontierAt(cands, 1.0, weights, tol, keepEquals, optDirections), 1.0)
    ensures r.Success? && r.value.alpha != -1.0 ==>
              r.value.members == FrontierAt(cands, r.value.alpha, weights, tol, keepEquals, optDirections)
    ensures r.Success? ==>
              var n0 := |FrontierAt(cands, 0.0, weights, tol, keepEquals, optDirections)|;
              var n1 := |FrontierAt(cands, 1.0, weights, tol, keepEquals, optDirections)|;
              n0 != numKeep && !(n0 < numKeep && |cands| <= numKeep) && !(n0 > numKeep && n1 >= numKeep) ==>
                && -1.0 < r.value.alpha < 1.0 && r.value.alpha != 0.0
                && (n0 < numKeep ==> -1.0 <= alphaLB && alphaUB <= 0.0)
                && (n0 > numKeep ==> 0.0 <= alphaLB && alphaUB <= 1.0)
    ensures r.Success? && -1.0 < r.value.alpha < 1.0 && r.value.alpha != 0.0 ==>
              && -1.0 <= alphaLB < alphaUB <= 1.0
              && |FrontierAt(cands, alphaUB, weights, tol, keepEquals, optDirections)| < numKeep
              && (alphaLB == -1.0 || |FrontierAt(cands, alphaLB, weights, tol, keepEquals, optDirections)| > numKeep)
              && (|r.value.members| == numKeep ==> alphaLB < r.value.alpha < alphaUB)
              && (|r.value.members| > numKeep ==> r.value.alpha == alphaLB && alphaUB - alphaLB <= AlphaTolerance)
              && (|r.value.members| < numKeep ==> r.value.alpha == alphaUB && alphaUB - alphaLB <= AlphaTolerance)
  {
    alphaLB, alphaUB := 0.0, 0.0;
    if |cands| == 0 {
      return Failure(EmptyInput), alphaLB, alphaUB;
    }
    var n := |cands|;
    var frontier := Frontier(cands, weights, tol, keepEquals, optDirections);
    var paretoSet := frontier(0.0);
    var numTarget := |paretoSet|;
    if numTarget == numKeep {
      return Success(Outcome(paretoSet, 0.0)), alphaLB, alphaUB;
    }
    var lb, ub, numAtLB, numAtUB;
    if numTarget < numKeep {
      // not enough on the true frontier: relax towards alpha -1
      lb, numAtLB := -1.0, n;
      ub, numAtUB := 0.0, numTarget;
      alphaLB, alphaUB := lb, ub;
      if numAtLB <= numKeep {
        return Success(Outcome(cands, lb)), alphaLB, alphaUB;
      }
    } else {
      // too many on the true frontier: filter towards alpha 1
      lb, numAtLB := 0.0, numTarget;
      ub := 1.0;
      paretoSet := frontier(ub);
      numAtUB := |paretoSet|;
      alphaLB, alphaUB := lb, ub;
      if numAtUB >= numKeep {
        return Success(Outcome(paretoSet, ub)), alphaLB, alphaUB;
      }
    }
    var members, alpha, lbEnd, ubEnd := SecantSearch(frontier, n, numKeep, numTarget, lb, ub, numAtLB, numAtUB);
    alphaLB, alphaUB := lbEnd, ubEnd;
    return Success(Outcome(members, alpha)), alphaLB, alphaUB;
  }
}
